=== FILE: README.md ===
# Static file server: a Dafny model of its request decisions

The repository holds four versions of one small HTTP file server:

- the Go server (`go/main.go`, `go/content_type.go`);
- the older Go server (`main.go`);
- the C++ server on Boost.Beast (`cpp/main.cpp`, `cpp/content_type.cpp`);
- the Bun server (`main.js`).

Each server maps a request path onto the working directory. A directory gets an HTML listing. A file is sent whole, or in part when a `Range` header asks for it. The listing shows one row per entry, with an icon chosen from the extension, a link, a date and a human-readable size.

The model keeps the decisions each server makes and drops the bytes on the wire:

- which status a request gets;
- which headers carry which values;
- which part of a file is sent;
- which rows a listing holds, and what each cell shows.

The modules follow the sources:

- `Common`, `Decimal`: strings, splitting and joining, decimal digits.
- `Extensions`: the 29 extensions the classifiers test, each spelled once, recognised once and sorted into the five families whose icon and type prefix they share.
- `Sizes`: the K/M/G size rule, with the double nearest to 1.1 as an exact rational. The Go `FormatSize` and the C++ `format_size` both use it, since they test the same thresholds in the same order.
- `Page`: icons, rows, cells, the listing document and the response record that all servers share.
- `GoStrconv`: `strconv.ParseInt` with its clamping on overflow.
- `GoPath`: `filepath.Join` and `filepath.Clean` on a Unix host.
- `GoContentType`, `GoRange`, `GoServer`: the Go server.
- `LegacyServer`: the older Go server.
- `CppContentType`, `CppServer`: the C++ server. Its coroutine is modelled as a state machine over read and write completions.
- `JsFormat`, `JsServer`: the Bun server, including Node's `path.extname`, `parseRange` and the route table.

The model follows the code where it differs from the servers' stated behaviour:

- the C++ server closes the connection without a reply when the path does not stat, instead of answering 404;
- the C++ server never reads the method, so a HEAD of a file gets the whole file as its body, and any other method is served like GET;
- the Go servers do not reject `..` in the request path (see Findings);
- the Bun server lists `node_modules`;
- the Go and C++ listings always carry the "one level up" row, even at the root;
- for `bytes=-500` the Go code splits at the first `-`, so it serves bytes 0 to 500.

## Model

| member | source | states |
|---|---|---|
| Sizes.UnitOf | go/content_type.go:9-17 | The unit is G exactly when the size exceeds 1.1 GiB and M exactly when it exceeds 1.1 MiB but not 1.1 GiB. Otherwise it is K. Each threshold is stated as an integer comparison. |
| Sizes.ThresholdG | go/content_type.go:10 | Comparing a size with the binary64 value of 1.1·2^30 gives the same answer as the exact integer test 10·size > 11·2^30. |
| Sizes.ThresholdM | go/content_type.go:12 | The same equivalence for the 1.1·2^20 threshold. |
| Sizes.FormatSize | go/content_type.go:9-17 | The text keeps the size it was given. An M or G figure is above 1.1, and a K or M figure is at most 1126.4. A shown number never leaves that band. |
| Sizes.ShownValueBounds | cpp/content_type.cpp:7-14 | The band 1.1 < shown ≤ 1126.4 holds for any size scaled by the unit the rule picks. |
| Sizes.UnitMonotone | cpp/content_type.cpp:7-14 | A larger size never gets a smaller unit. |
| Sizes.UnitBoundaries | cpp/content_type.cpp:8-13 | The exact switch points: 1153433 bytes is K and 1153434 is M; 1181116006 is M and 1181116007 is G. |
| Page.Document | go/main.go:47-107 | A listing page is its heading, one fragment per row in order, and the footer. Reading the rows back off the page gives exactly the rows put in. |
| Page.RowsOfAppend | go/main.go:72-98 | Reading rows off two concatenated page parts gives the rows of each part, in order. |
| Page.RowsOf | go/main.go:72-98 | The rows read off a page are no more than its fragments, and each is a row fragment of the page. |
| Extensions.Spelling | go/content_type.go:20-78 | Every listed extension is a `.` followed by at least one character, with no further `.` and no `/`. |
| Extensions.RecogniseSpelling | go/content_type.go:20-78 | Each of the 29 listed extensions is recognised from its own spelling, so no test shadows a later one. |
| Extensions.FamilyIconInjective | go/content_type.go:88-145 | The film, code, music, image and text icons are pairwise distinct: two families share an icon exactly when they are the same family. |
| Decimal.NatToStringRoundTrip | go/main.go:136 | The decimal digits printed for a number read back as that number. |
| GoStrconv.ParseInt | go/main.go:129-130 | The result always fits int64. Empty input gives 0, and input with no digit gives 0. A negative result needs a leading `-`. Whenever the unsigned scan of the text after one sign is a syntax error, the result is 0. |
| GoStrconv.ScanUintStopsAtNonDigit | go/main.go:129-130 | The digit scan fails at the first non-digit when the digits before it still fit uint64. |
| GoStrconv.ParseIntOfTrailingJunk | go/main.go:129-130 | A number followed by a non-digit, such as `5x` or `1+2`, parses to 0, not to the number before the stray character. |
| GoStrconv.ScanUintDigits | go/main.go:129-130 | A digit string gives its value while that fits uint64 and a range error past that. |
| GoStrconv.ParseIntOfIntToString | go/main.go:136 | Printing an int64 and parsing it back gives the same int64. |
| GoPath.LeadingDotDotEscapes | go/main.go:31 | If the first real name of the request path is `..`, the joined path starts with `..`. It then names something outside the served directory. |
| GoPath.ParentSegmentEscapes | go/main.go:31 | `/../<rest>` is served from the parent of the working directory, whatever `<rest>` is. |
| GoPath.ParentOfRootIsServed | go/main.go:31 | The same for a request path written literally as `/../<rest>`. |
| GoPath.ServedPathConfined | go/main.go:31 | The corrected join never yields a path with a `..` name or a leading `/`. |
| GoContentType.Ext | go/content_type.go:20 | `filepath.Ext` is empty or a `.`-led suffix of the path with no `/` and no further `.`. It is empty for a path ending in `/`. |
| GoContentType.ExtOfStem | go/content_type.go:20 | The extension of `stem + ".ext"` is `.ext`. |
| GoContentType.TypeOf | go/content_type.go:20-78 | Videos, audio and images are typed by their family followed by the extension without its dot. Every type starts with its family's prefix and is neither empty nor `application/octet-stream`. |
| GoContentType.TextTypes | go/content_type.go:20-78 | The source-file extensions are `text/plain`, Markdown is `text/markdown`, HTML is `text/html`, CSS is `text/stylesheet`, JavaScript is `text/javascript`, and JSON, YAML and TOML are `text/` plus their extension. |
| GoContentType.ParseType | go/content_type.go:19-86 | A recognised extension gives the type of that extension. An unrecognised one gives `""` exactly when the path ends in `/` and `application/octet-stream` exactly when it does not. |
| GoContentType.ParseIcon | go/content_type.go:88-153 | Every recognised extension but `.ico` gets its family's icon. Otherwise the folder icon is given exactly when the path ends in `/`, and no icon exactly when it does not. The up-arrow is never chosen. |
| GoContentType.IconAgreesWithType | go/content_type.go:19-153 | Whenever `ParseIcon` gives a family's icon, `ParseType` gives a type starting with that family's prefix. |
| GoContentType.IcoHasTypeButNoIcon | go/content_type.go:65-66 | `<stem>.ico` is typed `image/ico` but gets no icon, because `ParseIcon` has no `.ico` case. |
| GoContentType.IcoAnswers | go/content_type.go:65-74 | Any path whose extension is `.ico` is typed `image/ico` and gets no icon. |
| GoContentType.UpperCaseIsUnknown | go/content_type.go:20-26 | The match is case-sensitive: `.MP4` is `application/octet-stream` with no icon. |
| GoContentType.JpgType | go/content_type.go:67-74 | A `.jpg` file is typed `image/jpg`. |
| GoContentType.JpgAnswers | go/content_type.go:67-74 | Any path whose extension is `.jpg` is typed `image/jpg`. |
| GoContentType.RecogniseOfStem | go/content_type.go:20 | A plain name followed by a listed spelling has exactly that extension. |
| GoRange.Wrap64 | go/main.go:137 | Signed 64-bit wrap-around: the result fits int64, equals an in-range input, and is shifted by 2^64 one step either side. |
| GoRange.ParseRangeHeader | go/main.go:122-134 | A header shorter than 6 means the whole file. A longer one with no `-` after its 6th character has no second part. Otherwise it is a span with a non-negative start, and an end of 0 is replaced by size−1. |
| GoRange.HeaderWithStart | go/main.go:128-134 | `<6 chars><a>-<tail>` parses to start `a` and end `ParseInt(tail)`, or size−1 when that is 0. |
| GoRange.HeaderWithoutStart | go/main.go:128-134 | `<6 chars>-<tail>` parses to start 0 with the same end rule. |
| GoRange.SpanOfNumbers | go/main.go:128-134 | `<6 chars><a>-<b>` parses to the span a–b, or a to size−1 when b is 0. |
| GoRange.SpanToEnd | go/main.go:128-134 | `<6 chars><a>-` parses to the span from a to size−1. |
| GoRange.SpanFromZero | go/main.go:128-134 | `<6 chars>-<b>` parses to the span from 0 to b, or to size−1 when b is 0. |
| GoRange.Section | go/main.go:139 | The section reader returns a slice of the file starting at the offset. A length of 0 gives nothing. A positive length gives at most that many bytes, and exactly min(n, what remains) inside the file. A negative length overflows the reader's guard and gives everything from the offset to the end of the file. |
| GoRange.Answer | go/main.go:119-140 | A whole-file request gets 200 with the content. A header with no second part aborts the handler. A span gets 206 with `Accept-Ranges`, the `Content-Range` text and the section of the file that the wrapped length end−start+1 selects. That length is the `Content-Length` when it is not negative; a negative one is dropped by net/http, so no length is sent. |
| GoRange.ServeFile | go/main.go:119-140 | The same at the level of the raw header: short headers get the whole file, and only a header with no `-` after its 6th character aborts. |
| GoRange.SpanReply | go/main.go:119-140 | A header that parses to a span is answered exactly as that span is. |
| GoRange.SpanAnswer | go/main.go:135-139 | A span a–b starting inside the file has the length b−a+1. The body is bytes a..b when b is inside the file and the tail from a otherwise. |
| GoRange.WrappedSpanAnswer | go/main.go:137-139 | The span 0 to the largest int64 wraps to the least int64 as its length. No `Content-Length` is sent, and the body is the whole file. |
| GoRange.ValidRangeDelivers | go/main.go:128-139 | A span a–b inside the file (b > 0) gets 206 with exactly bytes a..b, a length of b−a+1 and the matching `Content-Range`. |
| GoRange.OpenEndedRange | go/main.go:128-139 | `a-` gets 206 with the tail of the file from `a` and the matching length. |
| GoRange.DashFirstIsPrefixRange | go/main.go:128-139 | `-b` gets 206 with the first b+1 bytes, not the last b. |
| GoRange.ZeroZeroIsWholeFile | go/main.go:132-134 | `0-0` gets 206 with the whole file, because an end of 0 means "to the end". |
| GoRange.EndPastFileOverstatesLength | go/main.go:135-139 | An end past the file's last byte gets a `Content-Length` larger than the bytes actually sent. |
| GoRange.LargestEndWrapsLength | go/main.go:128-139 | The header `0-9223372036854775807` gets 206 with no `Content-Length` and the whole file. |
| GoRange.ReversedSpanAnswer | go/main.go:135-139 | A span that ends before it starts, with a start inside the file, has no `Content-Length` and sends the tail of the file from the start. |
| GoRange.ReversedRangeSendsTail | go/main.go:128-139 | A header such as `10-5` gets 206, the `Content-Range` naming the reversed span, no `Content-Length`, and the file from byte 10 to its end. |
| GoServer.IgnoreOnError | go/main.go:16-21 | An error is logged exactly when there is one and its message ends in neither `: broken pipe` nor `: connection reset by peer`. |
| GoServer.HangUpsAreSilent | go/main.go:17 | A hang-up is silent whatever precedes the suffix, but the bare words without `: ` are logged. |
| GoServer.RowFor | go/main.go:76-97 | A directory's link is the escaped name plus `/`, with a folder icon and `-` cells. A file's link is the escaped name, with its modification time and formatted size. The icon is always the one `ParseIcon` gives the link, and the caption is always the raw name. |
| GoServer.Listing | go/main.go:72-98 | Each row belongs to a shown entry, and each shown entry gets its row. Shown means not hidden, not `node_modules`, and its stat succeeded. |
| GoServer.ListingAppend | go/main.go:72-98 | The rows of two runs of entries are the rows of each run, in the order the entries are given (`os.ReadDir` hands them over sorted by name). |
| GoServer.ListingPage | go/main.go:47-107 | The page starts with the served path and the up-row and ends with the footer. Its rows are the up-row followed by the listing. |
| GoServer.HandleAt | go/main.go:32-144 | A path that does not stat gets 404. A GET on an unreadable directory gets 500. A GET on a file that cannot be opened gets 403. 404 covers exactly: no stat, a non-GET on a directory, and a verb other than GET/HEAD on a file. A HEAD on a file gets its type and length. A GET on a file goes to the range logic. |
| GoServer.Handle | go/main.go:31-36 | The handler serves `filepath.Join("./", URL.Path)`, and a path that does not stat gets 404. |
| GoServer.HandleReadsOutside | go/main.go:31-36 | Two filesystems that agree on everything under `.` can get different answers to `HEAD /../<rest>`. |
| GoServer.HandleConfined | go/main.go:31-36 | The handler with the traversal closed: 404 when the confined path does not stat. |
| GoServer.ConfinedIgnoresOutside | go/main.go:31-36 | With the traversal closed, two filesystems that agree under `.` get the same answer to every request. |
| LegacyServer.LegacyHandleAt | main.go:25-78 | Same 404/403 conditions as the newer server. Every GET on a directory gets the fixed one-row table. Every typed reply says `video/mp4`. A HEAD on a file gets its length. A GET on a file that opens gets the range logic with the type `video/mp4`. |
| LegacyServer.LegacyHandle | main.go:24-29 | The older handler serves the same joined path, and a path that does not stat gets 404. |
| LegacyServer.DirectoryAnswerIsFixed | main.go:33-36 | The directory answer does not depend on the directory's contents. |
| LegacyServer.FilesAnswerLikeNewerServer | main.go:37-74 | On a file whose newer type would be `video/mp4`, the two Go servers answer identically. |
| LegacyServer.UnreadableDirectoryStillListed | main.go:33-36 | An unreadable directory gets 200 from the older server and 500 from the newer one. |
| CppContentType.Lower | cpp/content_type.cpp:17 | ASCII lower-casing keeps the length and lowers each character. |
| CppContentType.IEqualsLowerLiteral | cpp/content_type.cpp:17 | `iequals` against a lower-case literal is equality after lower-casing. |
| CppContentType.IEqualsIsLowerEquality | cpp/content_type.cpp:17 | `iequals` holds exactly when the two lower-cased strings are equal. |
| CppContentType.Extension | cpp/content_type.cpp:17 | Boost's `extension()` is empty or a `.`-led suffix of the path with no `/` and no further `.`. |
| CppContentType.ExtensionOfStem | cpp/content_type.cpp:17 | The extension of `stem + ".ext"` is `.ext` (the stem is not `.` or empty). |
| CppContentType.TableType | cpp/content_type.cpp:16-70 | The table has no entry exactly for `.c` and `.h`. Every entry but `.rs` starts with its family's prefix, and no entry is empty or `application/octet-stream`. |
| CppContentType.Classify | cpp/content_type.cpp:17-70 | A path is classified exactly when its lower-cased extension is one of the literals tested, and `.c` and `.h` are not among them. |
| CppContentType.ParseType | cpp/content_type.cpp:16-75 | An unlisted extension gives `""` exactly for a directory and `application/octet-stream` exactly otherwise. A listed extension other than `.rs` gives a type with its family's prefix, whatever `is_dir` says. |
| CppContentType.ParseTypeCorrected | cpp/content_type.cpp:41-42 | A path classified as `.rs` is typed `text/rs`. Every other path is typed exactly as `ParseType` types it. |
| CppContentType.CorrectedTypeInFamily | cpp/content_type.cpp:16-70 | With the correction, every listed extension, `.rs` included, has a type with its family's prefix. |
| CppContentType.ParseIcon | cpp/content_type.cpp:77-134 | Every listed extension but `.ico` gets its family's icon. Otherwise the folder icon is given exactly for a directory and no icon exactly for anything else. The up-arrow is never chosen. |
| CppContentType.IconAgreesWithCorrectedType | cpp/content_type.cpp:16-134 | With `.rs` corrected, whenever the icon is a family's icon, the type starts with that family's prefix. |
| CppContentType.OnlyRustDisagrees | cpp/content_type.cpp:16-134 | As written, a path whose icon and type disagree on the family is classified as `.rs`. |
| CppContentType.TypeIgnoresCase | cpp/content_type.cpp:16-134 | Two paths whose extensions are equal under `iequals` get the same type and the same icon. |
| CppContentType.KeyOfStem | cpp/content_type.cpp:17 | The lower-cased extension of `stem + ".ext"` is `.ext` for a lower-case literal. |
| CppContentType.SpellingIsLower | cpp/content_type.cpp:17-70 | Every literal tested is lower case, so `iequals` against it is equality after lower-casing. |
| CppContentType.ClassifyOfStem | cpp/content_type.cpp:17-70 | A plain name followed by the spelling of any listed extension is classified as that extension. |
| CppContentType.JpegEntry | cpp/content_type.cpp:59-62 | Both JPEG spellings have the table entry `image/jpeg`. |
| CppContentType.UpperCaseVideo | cpp/content_type.cpp:17-79 | Unlike in the Go server, `<stem>.MP4` is classified as `.mp4`: it is typed `video/mp4` and gets the film icon, directory or not. |
| CppContentType.Mp4Answers | cpp/content_type.cpp:17-79 | A path classified as `.mp4`, in any case, is typed `video/mp4` and gets the film icon, directory or not. |
| CppContentType.JpegTypes | cpp/content_type.cpp:59-62 | A path classified as `.jpg` or as `.jpeg` is typed `image/jpeg`. |
| CppContentType.RustTypeTypo | cpp/content_type.cpp:41-42 | A path classified as `.rs` gets the code icon but is typed `test/rs`, which does not start with `text/`. |
| CppContentType.RustFileTypo | cpp/content_type.cpp:41-42 | `<stem>.rs`, such as `main.rs`, gets the code icon and is typed `test/rs`. |
| CppServer.EntryPath | cpp/main.cpp:112 | `path / name` ends with the name, with a separator before it. |
| CppServer.EntryPathName | cpp/main.cpp:115 | The file name of `dir / name` is the name. |
| CppServer.CppRowFor | cpp/main.cpp:111-123 | The icon comes from the entry path and its kind. A directory links to `name/` with `-` cells. A file links to `name`, its date cell is the literal `date`, and its size cell formats the length of the entry's path. |
| CppServer.CppRowForCorrected | cpp/main.cpp:121 | The corrected size cell shows a file's own size. Every other cell is unchanged. |
| CppServer.Rows | cpp/main.cpp:107-125 | Each row belongs to a listed entry (not hidden, not `node_modules`), and each listed entry gets its row. |
| CppServer.BuildDirectory | cpp/main.cpp:80-137 | The page starts with the directory path and the up-row and ends with the footer. Its rows are the up-row followed by the entries' rows. |
| CppServer.BuildDirectoryCorrected | cpp/main.cpp:80-137 | The same page with the corrected size cells. |
| CppServer.SizeCellIgnoresFileSize | cpp/main.cpp:121 | Two files of different sizes under the same name show the same size, which is the length of the path. |
| CppServer.CorrectedSizeCellTellsFilesApart | cpp/main.cpp:121 | With the correction, files of different sizes show different size cells. |
| CppServer.LoopOrClose | cpp/main.cpp:73 | The loop reads another request exactly when the request asked for keep-alive and does not need EOF. Otherwise the connection closes with the current error. For a request, Beast makes need-EOF the negation of keep-alive, so this is keep-alive alone. |
| CppServer.Dispatch | cpp/main.cpp:54-71 | A path whose stat fails closes the connection with that error and no reply. A readable directory gets its listing. Listing crashes the coroutine when the iterator throws, or when `status()` fails on a listed entry for a reason other than absence. A file requested with `Range` gets no reply and the loop condition decides what follows. A file that does not open closes the connection with an error. Otherwise the whole file is sent. |
| CppServer.Next | cpp/main.cpp:49-78 | A closed or crashed connection stays so. A received request is stat-ed and dispatched. A failed read closes with its error. A finished write goes round or closes. A completion that does not match the phase leaves it unchanged, and a reply is sent only right after a request is read. |
| CppServer.Run | cpp/main.cpp:49-78 | A connection never sends more replies than it reads requests, and nothing happens after it closes. |
| CppServer.RunAppend | cpp/main.cpp:50-73 | Running two runs of completions one after the other is running their concatenation. |
| CppServer.RunAppendPhase | cpp/main.cpp:50-73 | Over a concatenation, the final phase is reached by running the second run from where the first ends. |
| CppServer.RunAppendReplies | cpp/main.cpp:50-73 | Over a concatenation, the replies are those of the first run followed by those of the second, run from where the first ends. |
| CppServer.ThrowingEntryCrashes | cpp/main.cpp:107-114 | A listed entry whose `status()` fails other than by absence crashes the listing. The same failure on a skipped (hidden or `node_modules`) entry still leaves the listing sent. |
| CppServer.EntryPathInjective | cpp/main.cpp:107-121 | Within one directory, two entries with the same path have the same name. |
| CppServer.FilePass | cpp/main.cpp:51-73 | A plain GET of a readable file sends the file once and then waits for the next request exactly under keep-alive. Nothing is logged. |
| CppServer.MissingPathIsSilent | cpp/main.cpp:56-58 | A missing path gets no reply and an unlogged close. Any other stat failure is logged. |
| CppServer.RangeRequestUnanswered | cpp/main.cpp:64-65 | A request for a file with a `Range` header gets no reply at all. |
| CppServer.WriteErrorIgnoredByLoop | cpp/main.cpp:70-77 | A failed write does not stop a keep-alive connection. Without keep-alive, the failure is logged. |
| CppServer.UpRowAlwaysFirst | cpp/main.cpp:105 | The up-row is the first row of every listing, the root's included. |
| CppServer.EntryKey | cpp/main.cpp:112 | The extension tested for an entry is the extension of its name. |
| CppServer.EntryKeyOfStem | cpp/main.cpp:112 | The lower-cased extension of the entry `dir / stem.ext` is `.ext`. |
| CppServer.VideoNamedDirectoryGetsFilm | cpp/main.cpp:112 | A directory named like a video gets the film icon, because the extension test comes first. |
| JsFormat.JsFormatSize | main.js:11-21 | A missing size shows `-`. A present size shows its G/M/K form by the 1.1 GiB and 1.1 MiB thresholds, in both directions. |
| JsFormat.PadStart | main.js:30 | `padStart` reaches the width (or keeps a longer string), ends with the original and fills with `0`. |
| JsFormat.FieldFits | main.js:30 | A number below 10^width is printed in exactly `width` digits that read back as the number. |
| JsFormat.FormatDate | main.js:28-31 | A missing date shows exactly `-`. A present one shows at least 16 characters. |
| JsFormat.FormatDateRoundTrip | main.js:28-31 | The `YYYY-MM-DD hh:mm` text reads back as the same local time, with the month shifted back by one. |
| JsFormat.ReadLayout | main.js:28-31 | Five digit fields of widths 4, 2, 2, 2, 2, laid out with `-`, `-`, space and `:`, read back as their values, with the month shifted back by one. |
| JsFormat.JsNumber | main.js:42 | An empty piece is `null`. A non-empty digit string is its decimal value, and any other text is `NaN`. |
| JsFormat.ParseRange | main.js:39-44 | No header gives `[null, null]`. Otherwise each piece of the text after the last `=`, split at every `-`, is converted in order. |
| JsFormat.AfterLast | main.js:41 | `split(sep).at(-1)` is a suffix of the text that holds no separator. |
| JsFormat.ParseRangeOfNumbers | main.js:41-43 | `…=a-b` gives `[a, b]`. |
| JsFormat.ParseRangeOpenEnded | main.js:41-43 | `…=a-` gives `[a, null]`. |
| JsFormat.ParseRangeSuffix | main.js:41-43 | `…=-b` gives `[null, b]`. |
| JsFormat.NumbersAfterEquals | main.js:41-43 | Any prefix before the last `=` is ignored. |
| JsFormat.TrimTrailingSlashes | main.js:47 | Dropping trailing slashes leaves a prefix that does not end in `/`, and only `/` is removed. |
| JsFormat.Extname | main.js:47 | `extname` is empty or a `.`-led suffix of the last name with no `/` and no further `.`. |
| JsFormat.ExtnameIgnoresTrailingSlash | main.js:47 | A trailing `/` does not change the extension. |
| JsFormat.DotFileHasNoExtname | main.js:47 | A name whose only dot is its first character has no extension. |
| JsFormat.ExtnameOfStem | main.js:47 | The extension of `stem + ".ext"` is `.ext`. |
| JsFormat.FetchIcon | main.js:46-85 | A link whose extension is listed (all shared ones but `.c`, `.h` and `.ico`) gets its family's icon. Otherwise the up-arrow is exactly for `../`, the folder exactly for another link ending in `/`, and no icon exactly for a link that does not end in `/`. |
| JsFormat.LinkExtension | main.js:47 | The extension of a plain name followed by a listed spelling is recognised as that extension. |
| JsFormat.ListedLinkIcon | main.js:47-78 | A plain name followed by a listed extension gets that extension's family icon, the same one the Go and C++ servers show. |
| JsFormat.HeaderFileHasNoIcon | main.js:46-85 | `<stem>.c` and `<stem>.h` get no icon, unlike in the Go server. |
| JsFormat.UpLinkHasNoExtname | main.js:80 | `../` has no extension, so the default branch handles it. |
| JsServer.KindName | main.js:213 | The kind word holds no `:`. |
| JsServer.RouteKey | main.js:186-190 | Two route keys `verb:kind` are equal exactly when verbs and kinds are. |
| JsServer.Route | main.js:183-191 | Each of the four handlers is picked exactly for its verb and kind. No handler exists exactly for another verb or for something neither directory nor file. |
| JsServer.NotFound | main.js:193-198 | 404 with no body for HEAD, and otherwise the text `<what> not found`. |
| JsServer.EntryRow | main.js:138-143 | A directory links to the encoded name plus `/`, with `-` as size. A file links to the encoded name, with its formatted size. The date is the formatted mtime, and the icon is chosen from the link. |
| JsServer.EntryRows | main.js:135-144 | The rows exist exactly when every entry's stat succeeds, and there are no more rows than entries. |
| JsServer.StatRows | main.js:135-144 | For any row builder, the rows exist exactly when every non-hidden entry's stat succeeds, and there are no more rows than entries. |
| JsServer.StatRowsSound | main.js:135-144 | Every row built is the row of some non-hidden entry whose stat succeeded. |
| JsServer.StatRowsComplete | main.js:135-144 | Every non-hidden entry has a successful stat and its row among those built. |
| JsServer.EntryRowsContents | main.js:135-144 | Each row belongs to a non-hidden entry, and each non-hidden entry gets its row. |
| JsServer.DirectoryPage | main.js:129-172 | The page exists exactly when all stats succeed. It is titled `/` for `./` and `/<name>` otherwise. |
| JsServer.UpRowOnlyBelowRoot | main.js:131-133 | The up-row appears exactly when the directory is not the root. |
| JsServer.NodeModulesListed | main.js:136 | A `node_modules` entry is listed. |
| JsServer.ListDirectory | main.js:251-259 | An unreadable directory or a failed entry stat rejects the handler. Otherwise the answer is 200 `text/html; charset=utf-8` with no other header. Its page is headed by the title, with the up-row below the root and then the entries' rows. |
| JsServer.ServeFile | main.js:226-234 | A file without an extension is answered with 200 `text/plain` and its content. A file with one throws a reference error. |
| JsServer.SliceIndex | main.js:239 | A numeric index is clamped to the file size, as `Blob.slice` does, and a `NaN` index counts as 0. |
| JsServer.RangeAnswer | main.js:235-248 | The body is always a contiguous section of the file. The status is 200 exactly when the whole file is asked for, and 206 otherwise. A missing end, or one at the last byte or beyond, gets the tail from the clamped start and no header. An end inside the file gets the bytes from the start to that end, or none when the start is past it, with `Accept-Ranges`, the file's type and `Content-Range` naming the bounds as given. A `NaN` end gets no bytes. |
| JsServer.ServeFileCorrected | main.js:226-249 | With the request passed in, every GET on a file is answered. Files without an extension are unchanged, and the rest go through the range logic. |
| JsServer.RangeReadsUndefinedRequest | main.js:234 | Every GET on a file with an extension is rejected as written and answered once corrected. |
| JsServer.SpanAnswer | main.js:241-248 | `a-b` ending before the last byte gets 206 with bytes a..b, `Content-Range: bytes a-b/size` and the file's type. |
| JsServer.RangedReplyIsSection | main.js:234-248 | Through the corrected handler, a header `…=a-b` gets exactly that span. |
| JsServer.OpenEndedReplyIsTail | main.js:238-239 | `a-` with a > 0 gets 206 with the tail from `a` and no `Content-Range`. |
| JsServer.TailAnswer | main.js:238-239 | The bounds `[a, null]` with a > 0 get 206 with the tail from `a` and no `Content-Range`. |
| JsServer.SuffixRangeGivesWholeFile | main.js:235-236 | `-n` is read as "no start" and gets the whole file with 200. |
| JsServer.HandleAt | main.js:200-263 | A name that does not stat gets 404 `resource`. An unrouted verb or kind gets 404 `handler`. 405 is exactly HEAD on a directory. HEAD on a file gets 200 with an empty body. GET on a file goes to the file handler and GET on a directory to the listing. The handler is rejected exactly on GET of a file with an extension or of a directory that cannot be listed. |
| JsServer.HandleAtCorrected | main.js:200-249 | With the request passed in, only a directory that cannot be listed leaves a request unanswered. Every other answer is the as-written one or the corrected file answer. |
| JsServer.DecodePieces | main.js:202 | The pieces decode exactly when each does, and then each decoded piece is the decoding of the piece at its index. |
| JsServer.DecodePath | main.js:202 | A path decodes exactly when every piece between its slashes decodes. |
| JsServer.DecodePathIdentity | main.js:202 | When decoding changes nothing, the path comes back unchanged, because splitting and joining undo each other. |
| JsServer.DecodedPiecesSplitBack | main.js:202 | When no decoded piece holds a `/`, the decoded path splits back into exactly the decoded pieces. |
| JsServer.Handle | main.js:200-219 | A path with a piece that does not decode rejects the request with a `URIError` before anything is looked up. Otherwise the resolved decoded path goes to the name handler. |

## Left out

- Sockets, HTTP parsing and writing, the Bun and net/http runtimes, and Boost.Asio's scheduling are left out. For the Go and Bun servers a request is its method, path and `Range` value. For the C++ server it is the resolved path, whether a `Range` header is present, and the keep-alive and need-EOF flags. A reply is a `Response` record.
- Text is a sequence of characters, with no UTF-8 encoding. Any length or index the model takes of text counts characters, where Go and C++ count bytes. The two agree on ASCII text.
- The HTML text around the rows is left out. A page is a heading, rows and a footer. Icons keep their markup (`Page.Markup`).
- Sizes.FormatSize: the one-decimal `%.1f` digits are not produced. The text is the size and its unit, and the shown figure is stated as an exact rational.
- GoServer.RowFor: the Go date text (`Format("2006-01-02 15:04")` in local time) is the modification time itself. Time zones and calendar conversion are left out.
- JsFormat.FormatDate: a date is given as local calendar fields. The conversion from a timestamp is left out.
- JsFormat.JsNumber: only empty strings and plain digit strings are modelled. Anything else is `NaN`, although JavaScript's `Number` also accepts signs, spaces, decimals and hexadecimal. Values past 2^53 are not rounded.
- GoRange.Section: follows `io.NewSectionReader` with its guard against `off + n` overflowing, so a negative length reads to the end of the file. A Go release without that guard would send nothing for a negative length.
- GoRange.ParseRangeHeader: `len(fileRange)` and `fileRange[6:]` count UTF-8 bytes, but the model counts characters. The two agree when the first six characters of the header are ASCII.
- CppServer.CppRowFor: the size cell's `path().size()` counts the bytes of the path, but the model counts its characters. The two agree on ASCII names.
- CppServer.ListingReply: `prepare_payload` also sets a `Content-Length`, as it does for `FileReply`. Here that length is the byte count of the rendered HTML, and the page is not rendered to bytes, so the field is `None`.
- CppServer.CppRowFor: `parse_icon(i->path(), i->status())` passes a `file_status` where the declared parameter is a `bool` (cpp/content_type.h:10). The model reads it as "the entry is a directory".
- CppServer.Dispatch: `directory_entry::status()` is taken to stat the entry when called, and to throw on any failure but absence. A status that a Boost release caches during iteration, with a different error policy, is not modelled.
- CppServer.Dispatch: the request path is the already resolved `"." / lexically_normal(URL path)`. URL parsing and Boost's normalisation are left out.
- CppServer.Next: a `directory_iterator` that throws is the phase `Crashed`. What happens to the connection after an uncaught exception is not modelled.
- JsServer.HandleAt: what Bun sends when a handler rejects is not modelled. The outcome is `Rejected` with the cause.
- `url.PathEscape`, `encodeURIComponent`, `decodeURIComponent`, Node's `join("./", ·)` and Bun's `file.type` are function parameters with no properties assumed. A `decodeURIComponent` that throws is a `None` from the parameter.
- Headers that net/http or Bun add on their own (sniffed content types, `Content-Length` for whole bodies) are `None` in the model.
- Logging is left out, except where `IgnoreOnError` or the C++ loop decide whether an error is logged.
- The keep-awake controller (`HibernateController`, `go/hibernate_windows.go`) is left out. It does not take part in request handling.
- A Go handler that panics on a header with no second part is the outcome `Aborted`. The connection handling of net/http's panic recovery is not modelled.

## Findings

| source | as written | input that shows it | evidently intended | confidence | as-written member | corrected member |
|---|---|---|---|---|---|---|
| go/main.go:31 | `filepath.Join("./", URL.Path)` keeps a leading `..`, and the raw `HandlerFunc` does no path cleaning first | `HEAD /../secret` stats and serves `../secret` | paths stay under the working directory | not executed | GoServer.HandleReadsOutside | GoServer.ConfinedIgnoresOutside |
| cpp/content_type.cpp:41-42 | `.rs` is typed `test/rs` | a GET of `main.rs` would carry the type `test/rs` | `text/rs`, like the other code types | not executed | CppContentType.RustFileTypo | CppContentType.IconAgreesWithCorrectedType |
| cpp/main.cpp:121 | the size cell formats `i->path().size()`, the length of the entry's path | two files `a.mp4` of 1 byte and of 1 GiB in `./d` both show `0.0K` | the file's size on disk | not executed | CppServer.SizeCellIgnoresFileSize | CppServer.CorrectedSizeCellTellsFilesApart |
| main.js:234 | the file GET handler reads `req`, which is not in scope | `GET /movie.mp4` throws a reference error | parse the `Range` header of the current request | not executed | JsServer.RangeReadsUndefinedRequest | JsServer.RangedReplyIsSection |

=== FILE: common.dfy ===
/** Shared vocabulary of the model: optional values, bytes, and the few
    string operations every implementation of the server relies on
    (prefix and suffix tests, search for a character, splitting). */
module Common {

  datatype Option<+T> = None | Some(value: T)

  /** One octet of a served file. */
  newtype byte = x: int | 0 <= x < 256

  predicate StartsWith(s: string, prefix: string) {
    |prefix| <= |s| && s[..|prefix|] == prefix
  }

  predicate EndsWith(s: string, suffix: string) {
    |suffix| <= |s| && s[|s| - |suffix|..] == suffix
  }

  /** Position of the first `c` in `s`, or `|s|` when there is none. */
  function IndexOf(s: string, c: char): (i: nat)
    ensures i <= |s|
    ensures i < |s| ==> s[i] == c
    ensures forall j | 0 <= j < i :: s[j] != c
    ensures i == |s| <==> c !in s
    decreases |s|
  {
    if |s| == 0 then 0
    else if s[0] == c then 0
    else 1 + IndexOf(s[1..], c)
  }

  /** Position of the last `c` in `s`, or -1 when there is none. */
  function LastIndex(s: string, c: char): (i: int)
    ensures -1 <= i < |s|
    ensures i >= 0 ==> s[i] == c
    ensures forall j | i < j < |s| :: s[j] != c
    decreases |s|
  {
    if |s| == 0 then -1
    else if s[|s| - 1] == c then |s| - 1
    else LastIndex(s[..|s| - 1], c)
  }

  /** The final name of a slash-separated path: everything after its last
      slash (empty when the path ends with a slash). */
  function LastName(path: string): (name: string)
    ensures '/' !in name
    ensures EndsWith(path, name)
  {
    path[LastIndex(path, '/') + 1..]
  }

  /** Splits `s` at every `sep`, keeping empty pieces, like `strings.Split`
      in Go and `String.prototype.split` in JavaScript with a one-character
      separator. */
  function Split(s: string, sep: char): (parts: seq<string>)
    ensures |parts| >= 1
    decreases |s|
  {
    var i := IndexOf(s, sep);
    if i == |s| then [s]
    else [s[..i]] + Split(s[i + 1..], sep)
  }

  /** No piece of a split contains the separator. */
  lemma {:induction false} SplitPieces(s: string, sep: char)
    ensures forall k | 0 <= k < |Split(s, sep)| :: sep !in Split(s, sep)[k]
    decreases |s|
  {
    var i := IndexOf(s, sep);
    if i < |s| {
      SplitPieces(s[i + 1..], sep);
      assert sep !in s[..i] by {
        forall j | 0 <= j < i ensures s[..i][j] != sep { }
      }
    }
  }

  /** Concatenates `parts` with `sep` between neighbours. */
  function Join(parts: seq<string>, sep: char): string
    requires |parts| >= 1
  {
    if |parts| == 1 then parts[0]
    else parts[0] + [sep] + Join(parts[1..], sep)
  }

  /** Splitting loses nothing: joining the pieces again gives back `s`. */
  lemma {:induction false} JoinSplit(s: string, sep: char)
    ensures Join(Split(s, sep), sep) == s
    decreases |s|
  {
    var i := IndexOf(s, sep);
    if i < |s| {
      var rest := Split(s[i + 1..], sep);
      var parts := [s[..i]] + rest;
      assert Split(s, sep) == parts;
      assert parts[1..] == rest;
      JoinSplit(s[i + 1..], sep);
      assert Join(parts, sep) == s[..i] + [sep] + Join(rest, sep);
      assert s == s[..i] + [sep] + s[i + 1..];
    }
  }

  /** Joining pieces that do not contain the separator can be undone by
      splitting. */
  lemma {:induction false} SplitJoin(parts: seq<string>, sep: char)
    requires |parts| >= 1
    requires forall k | 0 <= k < |parts| :: sep !in parts[k]
    ensures Split(Join(parts, sep), sep) == parts
    decreases |parts|
  {
    if |parts| == 1 {
      SplitWhole(parts[0], sep);
    } else {
      SplitJoin(parts[1..], sep);
      SplitCons(parts[0], sep, Join(parts[1..], sep));
      assert parts == [parts[0]] + parts[1..];
    }
  }

  /** Splitting at the first separator. */
  lemma SplitCons(p: string, sep: char, rest: string)
    requires sep !in p
    ensures Split(p + [sep] + rest, sep) == [p] + Split(rest, sep)
  {
    var s := p + [sep] + rest;
    IndexOfPrefix(p, sep, rest);
    assert s[..|p|] == p;
    assert s[|p| + 1..] == rest;
  }

  lemma IndexOfPrefix(p: string, c: char, rest: string)
    requires c !in p
    ensures IndexOf(p + [c] + rest, c) == |p|
  {
    var s := p + [c] + rest;
    assert s[|p|] == c;
    assert forall j | 0 <= j < |p| :: s[j] == p[j];
  }

  /** The last `c` of `p + [c] + rest` is the one after `p` when `rest`
      holds none. */
  lemma LastIndexBeforeSuffix(p: string, c: char, rest: string)
    requires c !in rest
    ensures LastIndex(p + [c] + rest, c) == |p|
  {
    var s := p + [c] + rest;
    LastIndexIs(s, c, |p|);
  }

  /** The same, for a suffix that starts with its only `c`. */
  lemma LastIndexAtSuffix(p: string, suffix: string, c: char)
    requires |suffix| > 0 && suffix[0] == c && c !in suffix[1..]
    ensures LastIndex(p + suffix, c) == |p|
  {
    LastIndexIs(p + suffix, c, |p|);
  }

  /** The last `c` is at `i` when `s[i]` is one and nothing after is. */
  lemma LastIndexIs(s: string, c: char, i: nat)
    requires i < |s| && s[i] == c
    requires forall j | i < j < |s| :: s[j] != c
    ensures LastIndex(s, c) == i
  {
  }

  lemma LastIndexAbsent(s: string, c: char)
    requires c !in s
    ensures LastIndex(s, c) == -1
  {
  }

  /** What follows position `d` of a suffix is again a suffix, and holds
      no character the suffix lacks. */
  lemma SuffixOfSuffix(s: string, t: string, d: nat)
    requires EndsWith(s, t) && d <= |t|
    ensures EndsWith(s, t[d..])
    ensures forall c | c !in t :: c !in t[d..]
  {
    assert s[|s| - |t[d..]|..] == s[|s| - |t|..][d..];
  }

  /** A text without the separator is one piece. */
  lemma SplitWhole(t: string, sep: char)
    requires sep !in t
    ensures Split(t, sep) == [t]
  {
  }
}

=== FILE: cpp_content_type.dfy ===
/** `parse_type` and `parse_icon` of the C++ server; its `format_size` is
    `Sizes.FormatSize`. The classifiers compare `path.extension()` with
    lower-case literals using Beast's `iequals`, which ignores ASCII case;
    the model compares the lower-cased extension with the same literals
    (`IEqualsLowerLiteral` shows the two tests agree). When no extension
    matches, `is_dir` (false unless the caller passes it) decides. */
module CppContentType {
  import opened Common
  import opened Sizes
  import opened Page
  import opened Extensions

  function LowerAscii(c: char): char {
    if 'A' <= c <= 'Z' then ((c as int) + 32) as char else c
  }

  function Lower(s: string): (r: string)
    ensures |r| == |s|
    ensures forall i | 0 <= i < |s| :: r[i] == LowerAscii(s[i])
  {
    seq(|s|, i requires 0 <= i < |s| => LowerAscii(s[i]))
  }

  /** Beast's `iequals`: same length, same characters after ASCII
      lower-casing. */
  predicate IEquals(a: string, b: string) {
    |a| == |b| && forall i | 0 <= i < |a| :: LowerAscii(a[i]) == LowerAscii(b[i])
  }

  predicate IsLowerLiteral(s: string) {
    forall i | 0 <= i < |s| :: !('A' <= s[i] <= 'Z')
  }

  /** Against a literal without upper-case letters, `iequals` is equality of
      the lower-cased text with the literal. */
  lemma IEqualsLowerLiteral(a: string, lit: string)
    requires IsLowerLiteral(lit)
    ensures IEquals(a, lit) <==> Lower(a) == lit
  {
    if Lower(a) == lit {
      assert forall i | 0 <= i < |a| :: LowerAscii(lit[i]) == lit[i];
    }
  }

  /** `iequals` is equality after lower-casing both sides. */
  lemma IEqualsIsLowerEquality(a: string, b: string)
    ensures IEquals(a, b) <==> Lower(a) == Lower(b)
  {
    if Lower(a) == Lower(b) {
      assert forall i | 0 <= i < |a| :: Lower(a)[i] == Lower(b)[i];
    }
  }

  /** Boost's `path::extension()` (version 3): from the last `.` of the final
      name, except that the names `.` and `..` have none. A path ending in
      `/` has final name `.`, so it has no extension either. */
  function Extension(path: string): (e: string)
    ensures e == "" || (e[0] == '.' && EndsWith(path, e))
    ensures forall k | 0 <= k < |e| :: e[k] != '/'
    ensures forall k | 1 <= k < |e| :: e[k] != '.'
  {
    var name := LastName(path);
    var d := LastIndex(name, '.');
    if name == "." || name == ".." || d < 0 then ""
    else
      assert EndsWith(name, name[d..]);
      name[d..]
  }

  /** What follows the family prefix in `parse_type`'s answer: the
      extension's own name, except that `.css` is `stylesheet`, `.js` is
      `javascript`, `.jpg` is `jpeg`, `.txt` is `plain` and `.md` is
      `markdown`. */
  function Subtype(k: Known): string {
    match k
    case Css => "stylesheet"
    case Js => "javascript"
    case Jpg => "jpeg"
    case Txt => "plain"
    case Md => "markdown"
    case _ => Spelling(k)[1..]
  }

  /** `parse_type`'s entry for a recognised extension. `.c` and `.h` are
      not in its list, and `.rs` is spelled `test/rs`; every other entry
      is the family's prefix followed by the subtype. */
  function TableType(k: Known): (t: Option<string>)
    ensures t.None? <==> k == C || k == H
    ensures t.Some? && k != Rs ==> StartsWith(t.value, TypePrefix(FamilyOf(k)))
    ensures t.Some? ==> t.value != "" && t.value != "application/octet-stream"
  {
    if k == C || k == H then None
    else if k == Rs then Some("test/rs")
    else
      PrefixedStartsWith(TypePrefix(FamilyOf(k)), Subtype(k));
      PrefixedNotOctetStream(FamilyOf(k), Subtype(k));
      Some(TypePrefix(FamilyOf(k)) + Subtype(k))
  }

  /** What both classifiers compare: the extension, lower-cased. */
  function Key(path: string): string {
    Lower(Extension(path))
  }

  /** The extension both classifiers find for a path, if they list it. */
  function Classify(path: string): (k: Option<Known>)
    ensures k.Some? ==> k == Recognise(Key(path)) && k.value != C && k.value != H
    ensures k.None? ==> Recognise(Key(path)) in {None, Some(C), Some(H)}
  {
    match Recognise(Key(path))
    case Some(k) => if k == C || k == H then None else Some(k)
    case None => None
  }

  /** `parse_type(path, is_dir)` as written. A listed extension wins over
      `is_dir`; otherwise a directory gets `""` and anything else
      `application/octet-stream`. */
  function ParseType(path: string, isDir: bool): (r: string)
    ensures r == "" <==> Classify(path).None? && isDir
    ensures r == "application/octet-stream" <==> Classify(path).None? && !isDir
    ensures Classify(path).Some? && Classify(path) != Some(Rs) ==>
              StartsWith(r, TypePrefix(FamilyOf(Classify(path).value)))
  {
    match Classify(path)
    case Some(k) => TableType(k).value
    case None => if isDir then "" else "application/octet-stream"
  }

  /** `parse_type` with the `.rs` entry read as the evidently intended
      `text/rs`: every listed extension then has a type of its own
      family. */
  function ParseTypeCorrected(path: string, isDir: bool): (r: string)
    ensures Classify(path) == Some(Rs) ==> r == TypePrefix(Code) + "rs"
    ensures Classify(path) != Some(Rs) ==> r == ParseType(path, isDir)
  {
    if Classify(path) == Some(Rs) then TypePrefix(Code) + "rs"
    else ParseType(path, isDir)
  }

  /** With `.rs` corrected, every listed extension has a type carrying its
      family's prefix. */
  lemma CorrectedTypeInFamily(path: string, isDir: bool)
    requires Classify(path).Some?
    ensures StartsWith(ParseTypeCorrected(path, isDir), TypePrefix(FamilyOf(Classify(path).value)))
  {
    if Classify(path) == Some(Rs) {
      PrefixedStartsWith(TypePrefix(Code), "rs");
    }
  }

  /** The extensions `parse_icon` gives an icon: every listed one but
      `.ico`. */
  predicate HasIcon(k: Option<Known>) {
    k.Some? && k.value != Ico
  }

  /** `parse_icon(path, is_dir)`: a listed extension other than `.ico`
      gets its family's icon; otherwise the folder icon is given exactly
      when `is_dir` holds. */
  function ParseIcon(path: string, isDir: bool): (i: Icon)
    ensures i == Folder <==> !HasIcon(Classify(path)) && isDir
    ensures i == NoIcon <==> !HasIcon(Classify(path)) && !isDir
    ensures i != UpArrow
    ensures HasIcon(Classify(path)) ==> i == FamilyIcon(FamilyOf(Classify(path).value))
  {
    var k := Classify(path);
    if HasIcon(k) then FamilyIcon(FamilyOf(k.value))
    else if isDir then Folder
    else NoIcon
  }

  /** With `.rs` corrected, the icon agrees with the type: each family's
      icon goes with a type carrying that family's prefix. */
  lemma IconAgreesWithCorrectedType(path: string, isDir: bool)
    ensures forall f: Family :: ParseIcon(path, isDir) == FamilyIcon(f) ==>
              StartsWith(ParseTypeCorrected(path, isDir), TypePrefix(f))
  {
    forall f: Family | ParseIcon(path, isDir) == FamilyIcon(f)
      ensures StartsWith(ParseTypeCorrected(path, isDir), TypePrefix(f))
    {
      CorrectedTypeInFamily(path, isDir);
      FamilyIconInjective(FamilyOf(Classify(path).value), f);
    }
  }

  /** As written, `.rs` is the only extension whose type disagrees with
      its icon. */
  lemma OnlyRustDisagrees(path: string, isDir: bool)
    ensures forall f: Family :: ParseIcon(path, isDir) == FamilyIcon(f) && !StartsWith(ParseType(path, isDir), TypePrefix(f)) ==>
              Classify(path) == Some(Rs)
  {
    forall f: Family | ParseIcon(path, isDir) == FamilyIcon(f) && !StartsWith(ParseType(path, isDir), TypePrefix(f))
      ensures Classify(path) == Some(Rs)
    {
      FamilyIconInjective(FamilyOf(Classify(path).value), f);
    }
  }

  /** Two paths whose extensions `iequals` each other get the same type and
      the same icon. */
  lemma TypeIgnoresCase(p: string, q: string, isDir: bool)
    requires IEquals(Extension(p), Extension(q))
    ensures ParseType(p, isDir) == ParseType(q, isDir)
    ensures ParseIcon(p, isDir) == ParseIcon(q, isDir)
  {
    IEqualsIsLowerEquality(Extension(p), Extension(q));
    assert Key(p) == Key(q);
    SameClassSameAnswers(p, q, isDir);
  }

  /** Both classifiers depend on a path only through `Classify`. */
  lemma SameClassSameAnswers(p: string, q: string, isDir: bool)
    requires Classify(p) == Classify(q)
    ensures ParseType(p, isDir) == ParseType(q, isDir)
    ensures ParseIcon(p, isDir) == ParseIcon(q, isDir)
  {
  }

  /** The extension of a plain name followed by a one-dot suffix. */
  lemma ExtensionOfStem(stem: string, ext: string)
    requires '/' !in stem && stem != "" && stem != "."
    requires |ext| >= 2 && ext[0] == '.' && '.' !in ext[1..] && '/' !in ext
    ensures Extension(stem + ext) == ext
  {
    LastIndexAbsent(stem + ext, '/');
    LastIndexAtSuffix(stem, ext, '.');
  }

  lemma LowerFixes(s: string)
    requires IsLowerLiteral(s)
    ensures Lower(s) == s
  {
  }

  /** The key of a plain name with a one-dot, lower-case suffix. */
  lemma KeyOfStem(stem: string, ext: string)
    requires '/' !in stem && '.' !in stem && stem != ""
    requires |ext| >= 2 && ext[0] == '.' && '.' !in ext[1..] && '/' !in ext
    requires IsLowerLiteral(ext)
    ensures Key(stem + ext) == ext
  {
    ExtensionOfStem(stem, ext);
    LowerFixes(ext);
  }

  lemma LowerOfUpperMp4(ext: string)
    requires ext == ".MP4"
    ensures Lower(ext) == ".mp4"
  {
    var low := Lower(ext);
    assert low[1] == 'm' && low[2] == 'p' && low[3] == '4';
  }

  /** A plain name followed by the spelling of a listed extension is
      classified as that extension. */
  lemma ClassifyOfStem(stem: string, k: Known)
    requires '/' !in stem && '.' !in stem && stem != ""
    requires k != C && k != H
    ensures Classify(stem + Spelling(k)) == Some(k)
  {
    SpellingIsLower(k);
    KeyOfStem(stem, Spelling(k));
    RecogniseSpelling(k);
  }

  /** Every listed spelling is already lower case. */
  lemma SpellingIsLower(k: Known)
    ensures IsLowerLiteral(Spelling(k))
  {
  }

  /** Both JPEG spellings have the entry `image/jpeg`. */
  lemma JpegEntry(k: Known)
    requires k == Jpg || k == Jpeg
    ensures TableType(k) == Some("image/jpeg")
  {
    assert TypePrefix(Image) + Subtype(k) == "image/jpeg";
  }

  /** `clip.MP4` is classified as `.mp4`, like `clip.mp4`: the type and
      the icon ignore case (compare the Go server's `UpperCaseIsUnknown`). */
  lemma UpperCaseVideo(stem: string, ext: string, isDir: bool)
    requires '/' !in stem && '.' !in stem && stem != ""
    requires ext == ".MP4"
    ensures Classify(stem + ext) == Some(Mp4)
    ensures ParseType(stem + ext, isDir) == "video/mp4"
    ensures ParseIcon(stem + ext, isDir) == Film
  {
    ExtensionOfStem(stem, ext);
    LowerOfUpperMp4(ext);
    RecogniseSpelling(Mp4);
    Mp4Answers(stem + ext, isDir);
  }

  /** A path classified as `.mp4`, in any case, is `video/mp4` with the
      film icon, directory or not. */
  lemma Mp4Answers(path: string, isDir: bool)
    requires Classify(path) == Some(Mp4)
    ensures ParseType(path, isDir) == "video/mp4"
    ensures ParseIcon(path, isDir) == Film
  {
    assert TypePrefix(Video) + Subtype(Mp4) == "video/mp4";
  }

  /** `.jpg` and `.jpeg` both give `image/jpeg`. */
  lemma JpegTypes(path: string, k: Known)
    requires k == Jpg || k == Jpeg
    requires Classify(path) == Some(k)
    ensures ParseType(path, false) == "image/jpeg"
  {
    JpegEntry(k);
  }

  /** As written, a `.rs` file has a code icon but the type `test/rs`, so a
      code icon does not imply a `text/` type. */
  lemma RustTypeTypo(path: string)
    requires Classify(path) == Some(Rs)
    ensures ParseIcon(path, false) == FileCode
    ensures ParseType(path, false) == "test/rs"
    ensures !StartsWith(ParseType(path, false), TypePrefix(FamilyOf(Rs)))
  {
    assert FamilyOf(Rs) == Code;
    assert TableType(Rs) == Some("test/rs");
    assert "test/rs"[2] != "text/"[2];
  }

  /** A GET of `<stem>.rs`, such as `main.rs`, is typed `test/rs` although
      the listing shows it with the code icon. */
  lemma RustFileTypo(stem: string)
    requires '/' !in stem && '.' !in stem && stem != ""
    ensures ParseIcon(stem + ".rs", false) == FileCode
    ensures ParseType(stem + ".rs", false) == "test/rs"
  {
    assert Spelling(Rs) == ".rs";
    ClassifyOfStem(stem, Rs);
    RustTypeTypo(stem + ".rs");
  }
}

=== FILE: cpp_server.dfy ===
/** The C++ server's per-connection loop and its directory page. Each pass
    of the loop waits for a request, stats the resolved path, and then
    writes a listing for a directory, nothing for a request carrying a
    `Range` header, or the whole file otherwise; it goes round again only
    while the request asks for keep-alive and does not need EOF. Any read,
    stat or open error leaves the loop without a reply, and the exit is
    logged unless the error is "no such file or directory". The waits are
    the two asynchronous completions, read and write; `status` and `open`
    are synchronous and answered by the filesystem view. */
module CppServer {
  import opened Common
  import opened Sizes
  import opened Page
  import opened CppContentType
  import opened Extensions

  /** An error code at the loop's exit. */
  datatype ErrorCode = NoSuchFile | OtherError

  /** What the loop reads of a request: the resolved path (`"."` joined to
      the lexically normal URL path), whether a `Range` header is present,
      and the two connection flags. The method is never looked at. For a
      request Beast's `need_eof()` is `!keep_alive()`, so the two flags
      always disagree and the loop condition amounts to keep-alive; the
      model keeps both because the source tests both. */
  datatype Request = Request(path: string, hasRange: bool, keepAlive: bool, needEof: bool)

  /** The filesystem as `status` and `open` see it: `nodes` for paths that
      stat, `denied` for paths whose stat fails for a reason other than
      absence (a symlink loop, a link into a directory without search
      permission). The request path is stat-ed with an error code; an
      entry's `status()` throws on the same failure. */
  datatype FsView = FsView(nodes: map<string, Node>, denied: set<string>)

  /** Where the coroutine is suspended, or how it ended: `Crashed` when
      listing a directory threw. */
  datatype Phase =
    | AwaitRead
    | AwaitWrite(req: Request)
    | Closed(error: Option<ErrorCode>)
    | Crashed

  datatype ReadResult = ReadFailed(code: ErrorCode) | Received(req: Request)

  /** The completion the coroutine is resumed with. */
  datatype Event = ReadDone(result: ReadResult) | WriteDone(error: Option<ErrorCode>)

  /** One transition: the next phase and the reply handed to `async_write`,
      if any. */
  datatype Step = Step(next: Phase, sent: Option<Response>)

  /** Whether the loop ends up writing to the log. */
  predicate Logged(p: Phase) {
    p.Closed? && p.error.Some? && p.error.value != NoSuchFile
  }

  /** Boost's `path / name` for a relative name: a separator is added unless
      the directory path already ends with one. */
  function EntryPath(dir: string, name: string): (p: string)
    ensures EndsWith(p, name)
    ensures |p| > |name| ==> p[|p| - |name| - 1] == '/'
  {
    var p := if dir == "" || EndsWith(dir, "/") then dir + name else dir + "/" + name;
    assert p[|p| - |name|..] == name;
    p
  }

  /** Within one directory, different names have different paths. */
  lemma EntryPathInjective(dir: string, a: string, b: string)
    requires EntryPath(dir, a) == EntryPath(dir, b)
    ensures a == b
  {
    var pre := if dir == "" || EndsWith(dir, "/") then dir else dir + "/";
    assert EntryPath(dir, a) == pre + a && EntryPath(dir, b) == pre + b;
    assert a == (pre + a)[|pre|..];
    assert b == (pre + b)[|pre|..];
  }

  /** The last name of an entry's path is the entry's own name. */
  lemma EntryPathName(dir: string, name: string)
    requires '/' !in name && name != "" && dir != ""
    ensures LastName(EntryPath(dir, name)) == name
  {
    var p := EntryPath(dir, name);
    assert forall j | |p| - |name| <= j < |p| :: p[j] == name[j - (|p| - |name|)];
    assert LastIndex(p, '/') == |p| - |name| - 1;
  }

  /** The test on each entry of `build_directory`: a name starting with `.`,
      or `node_modules`, is skipped; nothing else is. */
  predicate Listed(e: Entry) {
    !IsHidden(e.name) && e.name != "node_modules"
  }

  /** Whether an entry's status says directory; a status of "not found"
      (a dangling link) does not. */
  predicate EntryIsDir(e: Entry) {
    e.meta.Some? && e.meta.value.isDir
  }

  /** A row of `build_directory` as written: the icon comes from the entry's
      full path and its directory flag; a directory links `name/` with "-"
      cells, and a file links `name`, shows the literal `date` and the
      formatted length of its path string. */
  function CppRowFor(dir: string, e: Entry): (r: Row)
    ensures r.caption == Name(e.name) && r.icon == ParseIcon(EntryPath(dir, e.name), EntryIsDir(e))
    ensures EntryIsDir(e) ==> r.href == e.name + "/" && r.date == Dash && r.size == Dash
    ensures !EntryIsDir(e) ==> r.href == e.name && r.date == Text("date")
    ensures !EntryIsDir(e) ==> r.size == Size(FormatSize(|EntryPath(dir, e.name)|))
  {
    var p := EntryPath(dir, e.name);
    var icon := ParseIcon(p, EntryIsDir(e));
    if EntryIsDir(e) then Row(icon, e.name + "/", Name(e.name), Dash, Dash)
    else Row(icon, e.name, Name(e.name), Text("date"), Size(FormatSize(|p|)))
  }

  /** The row with the size cell the page heading promises: a file shows
      its own size, and a file whose status failed shows "-". */
  function CppRowForCorrected(dir: string, e: Entry): (r: Row)
    ensures !EntryIsDir(e) && e.meta.Some? ==> r.size.Size? && r.size.shown.size == e.meta.value.size
    ensures r.icon == CppRowFor(dir, e).icon && r.href == CppRowFor(dir, e).href
    ensures r.date == CppRowFor(dir, e).date && r.caption == CppRowFor(dir, e).caption
  {
    var r := CppRowFor(dir, e);
    if EntryIsDir(e) then r
    else if e.meta.Some? then r.(size := Size(FormatSize(e.meta.value.size)))
    else r.(size := Dash)
  }

  /** The rows for `entries` made by `rowOf`, in the order given: one for
      each listed entry and none for the others. */
  function Rows(entries: seq<Entry>, rowOf: Entry -> Row): (rows: seq<Row>)
    ensures |rows| <= |entries|
    ensures forall r | r in rows :: exists e | e in entries :: Listed(e) && r == rowOf(e)
    ensures forall e | e in entries && Listed(e) :: rowOf(e) in rows
    decreases |entries|
  {
    if |entries| == 0 then []
    else
      var rest := Rows(entries[1..], rowOf);
      assert forall x | x in entries[1..] :: x in entries;
      if Listed(entries[0]) then [rowOf(entries[0])] + rest else rest
  }

  /** `build_directory`: the heading names the path, the "one level up" row
      always follows, then the rows of the listed entries. */
  function BuildDirectory(dir: string, entries: seq<Entry>): (page: seq<Fragment>)
    ensures |page| >= 3 && page[0] == Heading(dir) && page[1] == RowOf(UpRow) && page[|page| - 1] == Footer
    ensures RowsOf(page) == [UpRow] + Rows(entries, e => CppRowFor(dir, e))
  {
    Document(dir, [UpRow] + Rows(entries, e => CppRowFor(dir, e)))
  }

  /** `build_directory` with each file's own size in its size cell. */
  function BuildDirectoryCorrected(dir: string, entries: seq<Entry>): (page: seq<Fragment>)
    ensures |page| >= 3 && page[0] == Heading(dir) && page[1] == RowOf(UpRow) && page[|page| - 1] == Footer
    ensures RowsOf(page) == [UpRow] + Rows(entries, e => CppRowForCorrected(dir, e))
  {
    Document(dir, [UpRow] + Rows(entries, e => CppRowForCorrected(dir, e)))
  }

  /** As written, the size cell of a file does not depend on the file: two
      files of the same name but different sizes show the same size, the
      length of the path string. */
  lemma SizeCellIgnoresFileSize(dir: string, name: string, m1: Meta, m2: Meta)
    requires !m1.isDir && !m2.isDir
    ensures CppRowFor(dir, Entry(name, Some(m1))).size == CppRowFor(dir, Entry(name, Some(m2))).size
    ensures CppRowFor(dir, Entry(name, Some(m1))).size.shown.size == |EntryPath(dir, name)|
  {
  }

  /** With the size cell corrected, two files that differ in size show
      different sizes. */
  lemma CorrectedSizeCellTellsFilesApart(dir: string, name: string, m1: Meta, m2: Meta)
    requires !m1.isDir && !m2.isDir && m1.size != m2.size
    ensures CppRowForCorrected(dir, Entry(name, Some(m1))).size != CppRowForCorrected(dir, Entry(name, Some(m2))).size
  {
  }

  /** Whether building the listing throws: `status()` fails on some
      listed entry for a reason other than absence. Skipped entries are
      never stat-ed. */
  predicate ListingThrows(dir: string, entries: seq<Entry>, denied: set<string>) {
    exists e | e in entries :: Listed(e) && EntryPath(dir, e.name) in denied
  }

  /** A reply that writes the whole file: `prepare_payload` sets its length. */
  function FileReply(content: seq<byte>): Response {
    Response(200, None, Some(|content|), None, false, Bytes(content))
  }

  /** The listing reply, typed `text/html`. */
  function ListingReply(dir: string, entries: seq<Entry>): Response {
    Response(200, Some("text/html"), None, None, false, Html(BuildDirectory(dir, entries)))
  }

  /** The loop's condition, checked after the optional write. */
  function LoopOrClose(req: Request, error: Option<ErrorCode>): (p: Phase)
    ensures p == AwaitRead <==> req.keepAlive && !req.needEof
    ensures p != AwaitRead ==> p == Closed(error)
  {
    if req.keepAlive && !req.needEof then AwaitRead else Closed(error)
  }

  /** What follows a successful read: stat, then dispatch on the kind. */
  function Dispatch(req: Request, fs: FsView): (s: Step)
    ensures req.path in fs.denied ==> s == Step(Closed(Some(OtherError)), None)
    ensures req.path !in fs.denied && req.path !in fs.nodes ==> s == Step(Closed(Some(NoSuchFile)), None)
    ensures s.sent.Some? <==>
              && req.path !in fs.denied && req.path in fs.nodes
              && ((fs.nodes[req.path].Directory? && fs.nodes[req.path].entries.Some?
                   && !ListingThrows(req.path, fs.nodes[req.path].entries.value, fs.denied))
                  || (fs.nodes[req.path].File? && !req.hasRange && fs.nodes[req.path].openable))
    ensures s.sent.Some? ==> s.next == AwaitWrite(req)
    ensures req.path !in fs.denied && req.path in fs.nodes && fs.nodes[req.path].Directory? ==>
              s == if fs.nodes[req.path].entries.Some?
                      && !ListingThrows(req.path, fs.nodes[req.path].entries.value, fs.denied)
                   then Step(AwaitWrite(req), Some(ListingReply(req.path, fs.nodes[req.path].entries.value)))
                   else Step(Crashed, None)
    ensures req.path !in fs.denied && req.path in fs.nodes && fs.nodes[req.path].File? ==>
              s == if req.hasRange then Step(LoopOrClose(req, None), None)
                   else if !fs.nodes[req.path].openable then Step(Closed(Some(OtherError)), None)
                   else Step(AwaitWrite(req), Some(FileReply(fs.nodes[req.path].content)))
  {
    if req.path in fs.denied then Step(Closed(Some(OtherError)), None)
    else if req.path !in fs.nodes then Step(Closed(Some(NoSuchFile)), None)
    else match fs.nodes[req.path]
      case Directory(entries) =>
        if entries.None? || ListingThrows(req.path, entries.value, fs.denied) then Step(Crashed, None)
        else Step(AwaitWrite(req), Some(ListingReply(req.path, entries.value)))
      case File(content, openable, _) =>
        if req.hasRange then Step(LoopOrClose(req, None), None)
        else if !openable then Step(Closed(Some(OtherError)), None)
        else Step(AwaitWrite(req), Some(FileReply(content)))
  }

  /** The transition function of the loop. A completion that does not
      match the phase leaves it unchanged; an ended loop stays ended. */
  function Next(p: Phase, ev: Event, fs: FsView): (s: Step)
    ensures p.Closed? || p.Crashed? ==> s == Step(p, None)
    ensures s.sent.Some? ==> p == AwaitRead && ev.ReadDone? && ev.result.Received?
    ensures s.sent.Some? ==> s.next == AwaitWrite(ev.result.req)
    ensures p == AwaitRead && ev.ReadDone? && ev.result.ReadFailed? ==> s == Step(Closed(Some(ev.result.code)), None)
    ensures p.AwaitWrite? && ev.WriteDone? ==> s == Step(LoopOrClose(p.req, ev.error), None)
    ensures p == AwaitRead && ev.ReadDone? && ev.result.Received? ==> s == Dispatch(ev.result.req, fs)
    ensures (p == AwaitRead && ev.WriteDone?) || (p.AwaitWrite? && ev.ReadDone?) ==> s == Step(p, None)
  {
    match p
    case AwaitRead =>
      (match ev
       case ReadDone(ReadFailed(code)) => Step(Closed(Some(code)), None)
       case ReadDone(Received(req)) => Dispatch(req, fs)
       case WriteDone(_) => Step(p, None))
    case AwaitWrite(req) =>
      (match ev
       case WriteDone(error) => Step(LoopOrClose(req, error), None)
       case ReadDone(_) => Step(p, None))
    case Closed(_) => Step(p, None)
    case Crashed => Step(p, None)
  }

  /** The number of requests read among `events`. */
  function RequestsRead(events: seq<Event>): nat {
    if |events| == 0 then 0
    else (if events[0].ReadDone? && events[0].result.Received? then 1 else 0) + RequestsRead(events[1..])
  }

  /** Running the loop over a sequence of completions: the final phase and
      the replies written, in order. Every reply answers a request read, at
      most one reply each, and an ended loop writes nothing more. */
  function Run(p: Phase, events: seq<Event>, fs: FsView): (r: (Phase, seq<Response>))
    ensures |r.1| <= RequestsRead(events)
    ensures p.Closed? || p.Crashed? ==> r == (p, [])
    decreases |events|
  {
    if |events| == 0 then (p, [])
    else
      var s := Next(p, events[0], fs);
      var rest := Run(s.next, events[1..], fs);
      (rest.0, (if s.sent.Some? then [s.sent.value] else []) + rest.1)
  }

  /** Running over `a + b` is running over `a`, then over `b` from where
      `a` left off. */
  lemma RunAppend(p: Phase, a: seq<Event>, b: seq<Event>, fs: FsView)
    ensures Run(p, a + b, fs).0 == Run(Run(p, a, fs).0, b, fs).0
    ensures Run(p, a + b, fs).1 == Run(p, a, fs).1 + Run(Run(p, a, fs).0, b, fs).1
  {
    RunAppendPhase(p, a, b, fs);
    RunAppendReplies(p, a, b, fs);
  }

  lemma {:induction false} RunAppendPhase(p: Phase, a: seq<Event>, b: seq<Event>, fs: FsView)
    ensures Run(p, a + b, fs).0 == Run(Run(p, a, fs).0, b, fs).0
    decreases |a|
  {
    if |a| == 0 {
      assert a + b == b;
    } else {
      assert (a + b)[0] == a[0];
      assert (a + b)[1..] == a[1..] + b;
      RunAppendPhase(Next(p, a[0], fs).next, a[1..], b, fs);
    }
  }

  lemma {:induction false} RunAppendReplies(p: Phase, a: seq<Event>, b: seq<Event>, fs: FsView)
    ensures Run(p, a + b, fs).1 == Run(p, a, fs).1 + Run(Run(p, a, fs).0, b, fs).1
    decreases |a|
  {
    if |a| == 0 {
      assert a + b == b;
    } else {
      assert (a + b)[0] == a[0];
      assert (a + b)[1..] == a[1..] + b;
      RunAppendReplies(Next(p, a[0], fs).next, a[1..], b, fs);
    }
  }

  /** One full pass for a plain file request: the whole file is written,
      and the loop waits for the next request exactly when keep-alive holds
      and no EOF is needed; otherwise it ends, unlogged. */
  lemma FilePass(req: Request, fs: FsView)
    requires req.path !in fs.denied && req.path in fs.nodes
    requires fs.nodes[req.path].File? && fs.nodes[req.path].openable && !req.hasRange
    ensures var r := Run(AwaitRead, [ReadDone(Received(req)), WriteDone(None)], fs);
            && r.1 == [FileReply(fs.nodes[req.path].content)]
            && (r.0 == AwaitRead <==> req.keepAlive && !req.needEof)
            && !Logged(r.0)
  {
    var events := [ReadDone(Received(req)), WriteDone(None)];
    assert events[1..] == [WriteDone(None)];
    assert events[1..][1..] == [];
    var s1 := Next(AwaitRead, events[0], fs);
    assert s1 == Step(AwaitWrite(req), Some(FileReply(fs.nodes[req.path].content)));
    var s2 := Next(s1.next, events[1], fs);
    assert s2.next == LoopOrClose(req, None);
    assert Run(s2.next, events[1..][1..], fs) == (s2.next, []);
    assert Run(s1.next, events[1..], fs) == (s2.next, []);
    assert Run(AwaitRead, events, fs).0 == s2.next;
  }

  /** A request for a missing path ends the connection without a reply and
      without a log line; one whose stat fails otherwise is logged. */
  lemma MissingPathIsSilent(req: Request, fs: FsView)
    requires req.path !in fs.denied && req.path !in fs.nodes
    ensures var s := Next(AwaitRead, ReadDone(Received(req)), fs);
            s.sent.None? && s.next.Closed? && !Logged(s.next)
    ensures var s := Next(AwaitRead, ReadDone(Received(req)), fs.(denied := {req.path}));
            s.sent.None? && Logged(s.next)
  {
  }

  /** A request with a `Range` header on a file gets no reply at all; the
      connection waits for the next request when keep-alive holds. */
  lemma RangeRequestUnanswered(req: Request, fs: FsView)
    requires req.hasRange && req.path !in fs.denied && req.path in fs.nodes && fs.nodes[req.path].File?
    ensures var s := Next(AwaitRead, ReadDone(Received(req)), fs);
            s.sent.None? && (s.next == AwaitRead <==> req.keepAlive && !req.needEof)
  {
  }

  /** A failed write does not end a keep-alive connection, and it is logged
      only if the loop then ends. */
  lemma WriteErrorIgnoredByLoop(req: Request, fs: FsView)
    requires req.keepAlive && !req.needEof
    ensures Next(AwaitWrite(req), WriteDone(Some(OtherError)), fs).next == AwaitRead
    ensures Logged(Next(AwaitWrite(req.(keepAlive := false)), WriteDone(Some(OtherError)), fs).next)
  {
  }

  /** A listed entry whose status fails other than by absence crashes the
      listing; the same failure on a skipped entry changes nothing. */
  lemma ThrowingEntryCrashes(req: Request, fs: FsView, entries: seq<Entry>, e: Entry)
    requires req.path !in fs.denied && req.path in fs.nodes
    requires fs.nodes[req.path] == Directory(Some(entries)) && e in entries
    requires EntryPath(req.path, e.name) in fs.denied
    ensures Listed(e) ==> Next(AwaitRead, ReadDone(Received(req)), fs) == Step(Crashed, None)
    ensures !Listed(e) && !ListingThrows(req.path, entries, fs.denied - {EntryPath(req.path, e.name)}) ==>
              Next(AwaitRead, ReadDone(Received(req)), fs).sent == Some(ListingReply(req.path, entries))
  {
    var d := fs.denied - {EntryPath(req.path, e.name)};
    if !Listed(e) && !ListingThrows(req.path, entries, d) {
      forall x | x in entries && Listed(x) ensures EntryPath(req.path, x.name) !in fs.denied {
        assert EntryPath(req.path, x.name) !in d;
        if EntryPath(req.path, x.name) == EntryPath(req.path, e.name) {
          EntryPathInjective(req.path, x.name, e.name);
        }
      }
    }
  }

  /** The listing always starts with the "one level up" row, whichever
      directory it is. */
  lemma UpRowAlwaysFirst(dir: string, entries: seq<Entry>)
    ensures RowsOf(BuildDirectory(dir, entries))[0] == UpRow
  {
  }

  /** An entry's path has the key of the entry's name. */
  lemma EntryKey(dir: string, name: string)
    requires '/' !in name && name != "" && dir != ""
    ensures Key(EntryPath(dir, name)) == Key(name)
  {
    EntryPathName(dir, name);
    assert LastName(name) == name by {
      assert LastIndex(name, '/') == -1;
    }
  }

  /** The key of an entry `stem.ext` is its extension. */
  lemma EntryKeyOfStem(dir: string, stem: string, ext: string)
    requires dir != "" && '/' !in stem && '.' !in stem && stem != ""
    requires |ext| >= 2 && ext[0] == '.' && '.' !in ext[1..] && '/' !in ext
    requires IsLowerLiteral(ext)
    ensures Key(EntryPath(dir, stem + ext)) == ext
  {
    var name := stem + ext;
    assert '/' !in name by {
      assert forall j | |stem| <= j < |name| :: name[j] == ext[j - |stem|];
    }
    EntryKey(dir, name);
    KeyOfStem(stem, ext);
  }

  /** A directory named like a video is listed with the film icon: the
      extension wins over the directory flag. */
  lemma VideoNamedDirectoryGetsFilm(dir: string, stem: string, ext: string, m: Meta)
    requires dir != "" && '/' !in stem && '.' !in stem && stem != ""
    requires ext == Spelling(Mp4) && m.isDir
    ensures CppRowFor(dir, Entry(stem + ext, Some(m))).icon == Film
  {
    EntryKeyOfStem(dir, stem, ext);
    RecogniseSpelling(Mp4);
  }
}

=== FILE: decimal.dfy ===
/** Decimal text of integers, as printed by Go's `fmt` verbs `%d`, C++
    stream insertion and JavaScript's `Number.prototype.toString` for
    integers, together with its reading back. */
module Decimal {

  predicate IsDigit(c: char) {
    '0' <= c <= '9'
  }

  predicate AllDigits(s: string) {
    forall i | 0 <= i < |s| :: IsDigit(s[i])
  }

  function DigitChar(d: nat): (c: char)
    requires d < 10
    ensures IsDigit(c)
    ensures DigitValue(c) == d
  {
    (('0' as int) + d) as char
  }

  function DigitValue(c: char): (d: nat)
    requires IsDigit(c)
    ensures d < 10
  {
    (c as int) - ('0' as int)
  }

  /** Value of a run of digits, read left to right from an accumulator. */
  function Fold(acc: nat, s: string): nat
    requires AllDigits(s)
    decreases |s|
  {
    if |s| == 0 then acc
    else Fold(10 * acc + DigitValue(s[0]), s[1..])
  }

  function DigitsValue(s: string): nat
    requires AllDigits(s)
  {
    Fold(0, s)
  }

  /** Shortest decimal text of `n`: no sign, no leading zero except for 0. */
  function NatToString(n: nat): (s: string)
    ensures |s| >= 1
    ensures AllDigits(s)
    ensures |s| > 1 ==> s[0] != '0'
    decreases n
  {
    if n < 10 then [DigitChar(n)]
    else NatToString(n / 10) + [DigitChar(n % 10)]
  }

  /** `%d` of a signed integer: a minus sign, then the digits of the magnitude. */
  function IntToString(i: int): (s: string)
    ensures |s| >= 1
    ensures i >= 0 ==> s == NatToString(i)
    ensures i < 0 ==> s == "-" + NatToString(-i)
  {
    if i < 0 then "-" + NatToString(-i) else NatToString(i)
  }

  lemma {:induction false} FoldGrows(acc: nat, s: string)
    requires AllDigits(s)
    ensures Fold(acc, s) >= acc
    decreases |s|
  {
    if |s| > 0 {
      FoldGrows(10 * acc + DigitValue(s[0]), s[1..]);
    }
  }

  /** Appending one digit on the right multiplies by ten and adds it. */
  lemma {:induction false} FoldSnoc(acc: nat, s: string, c: char)
    requires AllDigits(s) && IsDigit(c)
    ensures AllDigits(s + [c])
    ensures Fold(acc, s + [c]) == 10 * Fold(acc, s) + DigitValue(c)
    decreases |s|
  {
    if |s| == 0 {
      assert s + [c] == [c];
    } else {
      assert (s + [c])[1..] == s[1..] + [c];
      FoldSnoc(10 * acc + DigitValue(s[0]), s[1..], c);
    }
  }

  /** Leading zeros do not change the value of a run of digits. */
  lemma {:induction false} FoldLeadingZeros(z: string, s: string)
    requires forall i | 0 <= i < |z| :: z[i] == '0'
    requires AllDigits(s)
    ensures AllDigits(z + s)
    ensures DigitsValue(z + s) == DigitsValue(s)
    decreases |z|
  {
    assert AllDigits(z + s) by {
      forall i | 0 <= i < |z + s| ensures IsDigit((z + s)[i]) {
        if i >= |z| { assert (z + s)[i] == s[i - |z|]; }
      }
    }
    if |z| > 0 {
      assert (z + s)[0] == '0';
      assert DigitValue((z + s)[0]) == 0;
      assert (z + s)[1..] == z[1..] + s;
      FoldLeadingZeros(z[1..], s);
      assert Fold(0, z + s) == Fold(0, z[1..] + s);
    } else {
      assert z + s == s;
    }
  }

  /** Reading the printed digits of `n` gives `n` back. */
  lemma {:induction false} NatToStringRoundTrip(n: nat)
    ensures DigitsValue(NatToString(n)) == n
    decreases n
  {
    if n >= 10 {
      var prefix := NatToString(n / 10);
      var last := DigitChar(n % 10);
      assert NatToString(n) == prefix + [last];
      NatToStringRoundTrip(n / 10);
      FoldSnoc(0, prefix, last);
      assert DigitsValue(prefix + [last]) == 10 * (n / 10) + n % 10;
    } else {
      var digit := DigitChar(n);
      assert NatToString(n) == [digit];
      assert [digit][1..] == [];
      assert Fold(0, [digit]) == Fold(DigitValue(digit), []);
    }
  }

  /** The printed text of `n` has at most `k` digits exactly when `n < 10^k`. */
  function Pow10(k: nat): (p: nat)
    ensures p >= 1
  {
    if k == 0 then 1 else 10 * Pow10(k - 1)
  }

  lemma {:induction false} NatToStringLength(n: nat, k: nat)
    requires n < Pow10(k)
    requires k >= 1
    ensures |NatToString(n)| <= k
    decreases k
  {
    if n >= 10 {
      NatToStringLength(n / 10, k - 1);
    }
  }
}

=== FILE: extensions.dfy ===
/** The file extensions the servers' classifiers recognise. Each server
    tests an extension against a run of literals; here the literals are
    named once, recognised once, and sorted into the families whose icon
    and type prefix they share. Which of them a given server lists is up
    to that server's module. */
module Extensions {
  import opened Common
  import opened Page

  datatype Known =
    | Mp4 | Mkv | Webm
    | Css | Js | Json | Yaml | Toml | Hypertext | Php | Cpp | C | H | Go | Rs
    | Flac | Wma | Mp3 | Wav | Ogg
    | Gif | Bmp | Ico | Jpg | Jpeg | Heic | Webp
    | Txt | Md

  /** The literal each classifier compares with, dot included. */
  function Spelling(k: Known): (s: string)
    ensures |s| >= 2 && s[0] == '.' && '.' !in s[1..] && '/' !in s
  {
    match k
    case Mp4 => ".mp4"
    case Mkv => ".mkv"
    case Webm => ".webm"
    case Css => ".css"
    case Js => ".js"
    case Json => ".json"
    case Yaml => ".yaml"
    case Toml => ".toml"
    case Hypertext => ".html"
    case Php => ".php"
    case Cpp => ".cpp"
    case C => ".c"
    case H => ".h"
    case Go => ".go"
    case Rs => ".rs"
    case Flac => ".flac"
    case Wma => ".wma"
    case Mp3 => ".mp3"
    case Wav => ".wav"
    case Ogg => ".ogg"
    case Gif => ".gif"
    case Bmp => ".bmp"
    case Ico => ".ico"
    case Jpg => ".jpg"
    case Jpeg => ".jpeg"
    case Heic => ".heic"
    case Webp => ".webp"
    case Txt => ".txt"
    case Md => ".md"
  }

  /** The extension spelled exactly `s`, if any: case matters. */
  function Recognise(s: string): Option<Known> {
    if s == ".mp4" then Some(Mp4)
    else if s == ".mkv" then Some(Mkv)
    else if s == ".webm" then Some(Webm)
    else if s == ".css" then Some(Css)
    else if s == ".js" then Some(Js)
    else if s == ".json" then Some(Json)
    else if s == ".yaml" then Some(Yaml)
    else if s == ".toml" then Some(Toml)
    else if s == ".html" then Some(Hypertext)
    else if s == ".php" then Some(Php)
    else if s == ".cpp" then Some(Cpp)
    else if s == ".c" then Some(C)
    else if s == ".h" then Some(H)
    else if s == ".go" then Some(Go)
    else if s == ".rs" then Some(Rs)
    else if s == ".flac" then Some(Flac)
    else if s == ".wma" then Some(Wma)
    else if s == ".mp3" then Some(Mp3)
    else if s == ".wav" then Some(Wav)
    else if s == ".ogg" then Some(Ogg)
    else if s == ".gif" then Some(Gif)
    else if s == ".bmp" then Some(Bmp)
    else if s == ".ico" then Some(Ico)
    else if s == ".jpg" then Some(Jpg)
    else if s == ".jpeg" then Some(Jpeg)
    else if s == ".heic" then Some(Heic)
    else if s == ".webp" then Some(Webp)
    else if s == ".txt" then Some(Txt)
    else if s == ".md" then Some(Md)
    else None
  }

  datatype Family = Video | Code | Audio | Image | Prose

  function FamilyOf(k: Known): Family {
    match k
    case Mp4 | Mkv | Webm => Video
    case Css | Js | Json | Yaml | Toml | Hypertext | Php | Cpp | C | H | Go | Rs => Code
    case Flac | Wma | Mp3 | Wav | Ogg => Audio
    case Gif | Bmp | Ico | Jpg | Jpeg | Heic | Webp => Image
    case Txt | Md => Prose
  }

  /** Every extension is recognised from its own spelling. */
  lemma RecogniseSpelling(k: Known)
    ensures Recognise(Spelling(k)) == Some(k)
  {
    match FamilyOf(k)
    case Video => RecogniseVideo(k);
    case Code => RecogniseCode(k);
    case Audio => RecogniseAudio(k);
    case Image =>
      if k == Gif || k == Bmp || k == Ico {
        RecogniseIcon(k);
      } else {
        RecogniseImage(k);
      }
    case Prose => RecogniseProse(k);
  }

  lemma RecogniseVideo(k: Known)
    requires FamilyOf(k) == Video
    ensures Recognise(Spelling(k)) == Some(k)
  {
  }

  lemma RecogniseCode(k: Known)
    requires FamilyOf(k) == Code
    ensures Recognise(Spelling(k)) == Some(k)
  {
  }

  lemma RecogniseAudio(k: Known)
    requires FamilyOf(k) == Audio
    ensures Recognise(Spelling(k)) == Some(k)
  {
  }

  lemma RecogniseIcon(k: Known)
    requires k == Gif || k == Bmp || k == Ico
    ensures Recognise(Spelling(k)) == Some(k)
  {
  }

  lemma RecogniseImage(k: Known)
    requires k == Jpg || k == Jpeg || k == Heic || k == Webp
    ensures Recognise(Spelling(k)) == Some(k)
  {
  }

  lemma RecogniseProse(k: Known)
    requires FamilyOf(k) == Prose
    ensures Recognise(Spelling(k)) == Some(k)
  {
  }

  /** The icon every server shows for a family. */
  function FamilyIcon(f: Family): (i: Icon)
    ensures i != NoIcon && i != Folder && i != UpArrow
  {
    match f
    case Video => Film
    case Code => FileCode
    case Audio => FileMusic
    case Image => FileImage
    case Prose => FileText
  }

  /** The start of the MIME type that goes with a family's icon. */
  function TypePrefix(f: Family): string {
    match f
    case Video => "video/"
    case Code => "text/"
    case Audio => "audio/"
    case Image => "image/"
    case Prose => "text/"
  }

  lemma FamilyIconInjective(f: Family, g: Family)
    ensures FamilyIcon(f) == FamilyIcon(g) <==> f == g
  {
  }

  /** No type built from a family prefix is the fallback type. */
  lemma PrefixedNotOctetStream(f: Family, rest: string)
    ensures TypePrefix(f) + rest != "application/octet-stream"
  {
    assert (TypePrefix(f) + rest)[1] != "application/octet-stream"[1];
  }

  /** A type built from a prefix starts with that prefix. */
  lemma PrefixedStartsWith(prefix: string, rest: string)
    ensures StartsWith(prefix + rest, prefix)
  {
    assert (prefix + rest)[..|prefix|] == prefix;
  }
}

=== FILE: go_content_type.dfy ===
/** `ParseType` and `ParseIcon` of the Go server; its `FormatSize` is
    `Sizes.FormatSize`. Both classifiers switch on `filepath.Ext(path)`,
    which compares extensions exactly: `.MP4` is not `.mp4`. */
module GoContentType {
  import opened Common
  import opened Sizes
  import opened Page
  import opened Extensions

  /** `filepath.Ext` on a Unix host: scanning back from the end, the suffix
      starting at the first `.` met before any `/`. */
  function Ext(path: string): (e: string)
    ensures e == "" || (e[0] == '.' && EndsWith(path, e))
    ensures forall k | 0 <= k < |e| :: e[k] != '/'
    ensures forall k | 1 <= k < |e| :: e[k] != '.'
    ensures EndsWith(path, "/") ==> e == ""
  {
    ExtScan(path, |path|)
  }

  function ExtScan(path: string, i: nat): (e: string)
    requires i <= |path|
    requires forall j | i <= j < |path| :: path[j] != '/' && path[j] != '.'
    ensures e == "" || (e[0] == '.' && EndsWith(path, e))
    ensures forall k | 0 <= k < |e| :: e[k] != '/'
    ensures forall k | 1 <= k < |e| :: e[k] != '.'
    ensures i < |path| && path[|path| - 1] == '/' ==> e == ""
    decreases i
  {
    if i == 0 then ""
    else if path[i - 1] == '/' then ""
    else if path[i - 1] == '.' then
      path[i - 1..]
    else ExtScan(path, i - 1)
  }

  /** The type `ParseType` gives a recognised extension: a video, audio or
      image type is the family followed by the extension without its dot;
      source files are `text/plain` and the markup formats have their own
      `text/` types. */
  function TypeOf(k: Known): (t: string)
    ensures FamilyOf(k) in {Video, Audio, Image} ==> t == TypePrefix(FamilyOf(k)) + Spelling(k)[1..]
    ensures StartsWith(t, TypePrefix(FamilyOf(k)))
    ensures t != "" && t != "application/octet-stream"
  {
    var t := match k
      case Mp4 | Mkv | Webm => "video/" + Spelling(k)[1..]
      case Css => "text/stylesheet"
      case Js => "text/javascript"
      case Json => "text/json"
      case Yaml => "text/yaml"
      case Toml => "text/toml"
      case Hypertext => "text/html"
      case Php | Cpp | C | H | Go | Rs | Txt => "text/plain"
      case Flac | Wma | Mp3 | Wav | Ogg => "audio/" + Spelling(k)[1..]
      case Gif | Bmp | Ico | Jpg | Jpeg | Heic | Webp => "image/" + Spelling(k)[1..]
      case Md => "text/markdown";
    PrefixedStartsWith(TypePrefix(FamilyOf(k)), Spelling(k)[1..]);
    t
  }

  /** The `text/` types: source files are `text/plain`; the markup
      formats and Markdown are named, CSS as `stylesheet` and JavaScript
      in full. */
  lemma TextTypes(k: Known)
    requires FamilyOf(k) in {Code, Prose}
    ensures k in {Php, Cpp, C, H, Go, Rs, Txt} ==> TypeOf(k) == "text/plain"
    ensures k == Md ==> TypeOf(k) == "text/markdown"
    ensures k == Hypertext ==> TypeOf(k) == "text/html"
    ensures k == Css ==> TypeOf(k) == "text/stylesheet"
    ensures k == Js ==> TypeOf(k) == "text/javascript"
    ensures k in {Json, Yaml, Toml} ==> TypeOf(k) == "text/" + Spelling(k)[1..]
  {
  }

  /** `ParseType`: a recognised extension has a type of its family; any
      other path is `""` when it ends in `/` and
      `application/octet-stream` otherwise. */
  function ParseType(path: string): (r: string)
    ensures r == "" <==> Recognise(Ext(path)).None? && EndsWith(path, "/")
    ensures r == "application/octet-stream" <==> Recognise(Ext(path)).None? && !EndsWith(path, "/")
    ensures Recognise(Ext(path)).Some? ==> StartsWith(r, TypePrefix(FamilyOf(Recognise(Ext(path)).value)))
    ensures Recognise(Ext(path)).Some? ==> r == TypeOf(Recognise(Ext(path)).value)
  {
    match Recognise(Ext(path))
    case Some(k) => TypeOf(k)
    case None => if EndsWith(path, "/") then "" else "application/octet-stream"
  }

  /** The extensions `ParseIcon` lists: every recognised one but `.ico`. */
  predicate HasIcon(k: Option<Known>) {
    k.Some? && k.value != Ico
  }

  /** `ParseIcon`: a listed extension gets its family's icon; any other
      path gets the folder icon exactly when it ends in `/`, and none
      otherwise. */
  function ParseIcon(path: string): (i: Icon)
    ensures i == Folder <==> !HasIcon(Recognise(Ext(path))) && EndsWith(path, "/")
    ensures i == NoIcon <==> !HasIcon(Recognise(Ext(path))) && !EndsWith(path, "/")
    ensures i != UpArrow
    ensures HasIcon(Recognise(Ext(path))) ==> i == FamilyIcon(FamilyOf(Recognise(Ext(path)).value))
  {
    var k := Recognise(Ext(path));
    if HasIcon(k) then FamilyIcon(FamilyOf(k.value))
    else if EndsWith(path, "/") then Folder
    else NoIcon
  }

  /** The icon agrees with the type: a film, code, music, image or text
      icon goes with a `video/`, `text/`, `audio/`, `image/` or `text/`
      type. */
  lemma IconAgreesWithType(path: string)
    ensures forall f: Family :: ParseIcon(path) == FamilyIcon(f) ==> StartsWith(ParseType(path), TypePrefix(f))
  {
    forall f: Family | ParseIcon(path) == FamilyIcon(f)
      ensures StartsWith(ParseType(path), TypePrefix(f))
    {
      var k := Recognise(Ext(path));
      assert HasIcon(k);
      FamilyIconInjective(FamilyOf(k.value), f);
    }
  }

  /** `.ico` has an image type but no icon. */
  lemma IcoHasTypeButNoIcon(stem: string)
    requires '.' !in stem && '/' !in stem
    ensures ParseType(stem + ".ico") == "image/ico"
    ensures ParseIcon(stem + ".ico") == NoIcon
  {
    assert Spelling(Ico) == ".ico";
    RecogniseOfStem(stem, Ico);
    IcoAnswers(stem + ".ico");
  }

  lemma IcoAnswers(path: string)
    requires Recognise(Ext(path)) == Some(Ico)
    ensures ParseType(path) == "image/ico"
    ensures ParseIcon(path) == NoIcon
  {
    assert TypePrefix(Image) + Spelling(Ico)[1..] == "image/ico";
  }

  /** Matching is exact: an upper-case `.MP4` is an unknown extension. */
  lemma UpperCaseIsUnknown(stem: string)
    requires '.' !in stem && '/' !in stem
    ensures ParseType(stem + ".MP4") == "application/octet-stream"
    ensures ParseIcon(stem + ".MP4") == NoIcon
  {
    ExtOfStem(stem, ".MP4");
    assert Recognise(".MP4").None?;
  }

  /** `.jpg` keeps its own name in the type. */
  lemma JpgType(stem: string)
    requires '.' !in stem && '/' !in stem
    ensures ParseType(stem + ".jpg") == "image/jpg"
  {
    assert Spelling(Jpg) == ".jpg";
    RecogniseOfStem(stem, Jpg);
    JpgAnswers(stem + ".jpg");
  }

  lemma JpgAnswers(path: string)
    requires Recognise(Ext(path)) == Some(Jpg)
    ensures ParseType(path) == "image/jpg"
  {
    assert TypePrefix(Image) + Spelling(Jpg)[1..] == "image/jpg";
  }

  /** A plain name followed by a known extension is recognised as it. */
  lemma RecogniseOfStem(stem: string, k: Known)
    requires '/' !in stem
    ensures Recognise(Ext(stem + Spelling(k))) == Some(k)
  {
    ExtOfStem(stem, Spelling(k));
    RecogniseSpelling(k);
  }

  /** The extension of a plain name followed by a one-dot suffix. */
  lemma ExtOfStem(stem: string, ext: string)
    requires '/' !in stem
    requires |ext| >= 1 && ext[0] == '.' && '.' !in ext[1..] && '/' !in ext
    ensures Ext(stem + ext) == ext
  {
    var path := stem + ext;
    assert forall j | |stem| < j < |path| :: path[j] == ext[1..][j - |stem| - 1];
    ExtScanFindsDot(path, |path|, |stem|);
    assert path[|stem|..] == ext;
  }

  lemma {:induction false} ExtScanFindsDot(path: string, i: nat, d: nat)
    requires d < i <= |path|
    requires path[d] == '.'
    requires forall j | d < j < |path| :: path[j] != '/' && path[j] != '.'
    ensures ExtScan(path, i) == path[d..]
    decreases i
  {
    if i - 1 != d {
      ExtScanFindsDot(path, i - 1, d);
    }
  }
}

=== FILE: go_path.dfy ===
/** The path the Go servers stat and serve: `filepath.Join("./", URL.Path)`
    on a Unix host, that is `filepath.Clean` of the two elements joined by a
    slash. Clean works name by name: empty names and `.` go, a `..` removes
    the name before it, and a `..` that has nothing to remove stays in a
    relative path and disappears at the root of a rooted one. */
module GoPath {
  import opened Common

  /** A name that Clean keeps as it is. */
  predicate Ordinary(n: string) {
    n != "" && n != "." && n != ".." && '/' !in n
  }

  /** The names Clean keeps, processing `names` onto `stack`. */
  function CleanNames(rooted: bool, names: seq<string>, stack: seq<string>): seq<string>
    decreases |names|
  {
    if |names| == 0 then stack
    else
      var n := names[0];
      if n == "" || n == "." then CleanNames(rooted, names[1..], stack)
      else if n == ".." then
        if |stack| > 0 && stack[|stack| - 1] != ".." then CleanNames(rooted, names[1..], stack[..|stack| - 1])
        else if rooted then CleanNames(rooted, names[1..], stack)
        else CleanNames(rooted, names[1..], stack + [".."])
      else CleanNames(rooted, names[1..], stack + [n])
  }

  function Clean(path: string): string {
    var rooted := StartsWith(path, "/");
    var names := CleanNames(rooted, Split(path, '/'), []);
    var body := if |names| == 0 then "" else Join(names, '/');
    if rooted then "/" + body else if body == "" then "." else body
  }

  /** `filepath.Join("./", urlPath)`: an empty element is skipped. */
  function ServedPath(urlPath: string): string {
    if urlPath == "" then Clean("./") else Clean("./" + "/" + urlPath)
  }

  lemma SplitAfterSeparator(b: string)
    ensures Split("/" + b, '/') == [""] + Split(b, '/')
  {
    SplitCons("", '/', b);
    assert "" + "/" + b == "/" + b;
  }

  lemma {:induction false} SkipEmptyNames(rooted: bool, pre: seq<string>, names: seq<string>, stack: seq<string>)
    requires forall j | 0 <= j < |pre| :: pre[j] == "" || pre[j] == "."
    ensures CleanNames(rooted, pre + names, stack) == CleanNames(rooted, names, stack)
    decreases |pre|
  {
    if |pre| > 0 {
      assert (pre + names)[1..] == pre[1..] + names;
      SkipEmptyNames(rooted, pre[1..], names, stack);
    } else {
      assert pre + names == names;
    }
  }

  /** In a relative path, a `..` at the bottom of the stack is never removed. */
  lemma {:induction false} BottomDotDotStays(names: seq<string>, stack: seq<string>)
    requires |stack| > 0 && stack[0] == ".."
    ensures |CleanNames(false, names, stack)| > 0
    ensures CleanNames(false, names, stack)[0] == ".."
    decreases |names|
  {
    if |names| > 0 {
      var n := names[0];
      if n == "" || n == "." {
        BottomDotDotStays(names[1..], stack);
      } else if n == ".." {
        if |stack| > 0 && stack[|stack| - 1] != ".." {
          BottomDotDotStays(names[1..], stack[..|stack| - 1]);
        } else {
          BottomDotDotStays(names[1..], stack + [".."]);
        }
      } else {
        BottomDotDotStays(names[1..], stack + [n]);
      }
    }
  }

  /** The names of `./` joined to a request path are `.`, an empty name,
      then the request path's own names. */
  lemma JoinedNames(urlPath: string)
    ensures Split("./" + "/" + urlPath, '/') == [".", ""] + Split(urlPath, '/')
  {
    assert "./" + "/" + urlPath == "." + "/" + ("/" + urlPath);
    SplitCons(".", '/', "/" + urlPath);
    SplitAfterSeparator(urlPath);
  }

  /** Cleaning keeps names free of slashes. */
  lemma {:induction false} CleanNamesNoSlash(rooted: bool, names: seq<string>, stack: seq<string>)
    requires forall j | 0 <= j < |names| :: '/' !in names[j]
    requires forall j | 0 <= j < |stack| :: '/' !in stack[j]
    ensures forall j | 0 <= j < |CleanNames(rooted, names, stack)| :: '/' !in CleanNames(rooted, names, stack)[j]
    decreases |names|
  {
    if |names| > 0 {
      var n := names[0];
      if n == "" || n == "." {
        CleanNamesNoSlash(rooted, names[1..], stack);
      } else if n == ".." {
        if |stack| > 0 && stack[|stack| - 1] != ".." {
          CleanNamesNoSlash(rooted, names[1..], stack[..|stack| - 1]);
        } else if rooted {
          CleanNamesNoSlash(rooted, names[1..], stack);
        } else {
          CleanNamesNoSlash(rooted, names[1..], stack + [".."]);
        }
      } else {
        CleanNamesNoSlash(rooted, names[1..], stack + [n]);
      }
    }
  }

  lemma CleanOfDotDotNames(path: string)
    requires !StartsWith(path, "/")
    requires |CleanNames(false, Split(path, '/'), [])| > 0
    requires CleanNames(false, Split(path, '/'), [])[0] == ".."
    ensures StartsWith(Clean(path), "..")
    ensures Split(Clean(path), '/')[0] == ".."
  {
    var names := CleanNames(false, Split(path, '/'), []);
    JoinStartsWithFirst(names);
    SplitPieces(path, '/');
    CleanNamesNoSlash(false, Split(path, '/'), []);
    SplitJoin(names, '/');
    assert Clean(path) == Join(names, '/');
  }

  lemma DotDotOnEmptyStack(rest: seq<string>)
    ensures CleanNames(false, [".."] + rest, []) == CleanNames(false, rest, [".."])
  {
    var names := [".."] + rest;
    assert names[0] == "..";
    assert names[1..] == rest;
    var empty: seq<string> := [];
    assert empty + [".."] == [".."];
  }

  lemma NamesAfterLeadingDotDot(parts: seq<string>, k: nat, pre: seq<string>, all: seq<string>)
    requires k < |parts| && parts[k] == ".."
    requires forall j | 0 <= j < k :: parts[j] == "" || parts[j] == "."
    requires |pre| == 2 && pre[0] == "." && pre[1] == ""
    requires all == pre + parts
    ensures |CleanNames(false, all, [])| > 0
    ensures CleanNames(false, all, [])[0] == ".."
  {
    var skipped := pre + parts[..k];
    var rest := parts[k + 1..];
    var post := [".."] + rest;
    assert all == skipped + post by {
      assert parts == parts[..k] + [".."] + rest;
    }
    SkipEmptyNames(false, skipped, post, []);
    DotDotOnEmptyStack(rest);
    BottomDotDotStays(rest, [".."]);
  }

  /** As written, a request path whose first real name is `..` is served
      from outside `.`: the served path itself starts with `..`. */
  lemma LeadingDotDotEscapes(urlPath: string, k: nat)
    requires k < |Split(urlPath, '/')|
    requires Split(urlPath, '/')[k] == ".."
    requires forall j | 0 <= j < k :: Split(urlPath, '/')[j] == "" || Split(urlPath, '/')[j] == "."
    ensures StartsWith(ServedPath(urlPath), "..")
    ensures Split(ServedPath(urlPath), '/')[0] == ".."
  {
    var joined := "./" + "/" + urlPath;
    JoinedNames(urlPath);
    NamesAfterLeadingDotDot(Split(urlPath, '/'), k, [".", ""], Split(joined, '/'));
    assert joined[0] == '.';
    CleanOfDotDotNames(joined);
  }

  lemma ParentSegmentEscapes(dd: string, rest: string)
    requires dd == ".."
    ensures StartsWith(ServedPath("/" + dd + "/" + rest), "..")
    ensures Split(ServedPath("/" + dd + "/" + rest), '/')[0] == ".."
  {
    var urlPath := "/" + dd + "/" + rest;
    RootedFirstName(dd, rest);
    LeadingDotDotEscapes(urlPath, 1);
  }

  /** The names of `/` + `name` + `/` + `rest`: an empty one, then `name`. */
  lemma RootedFirstName(name: string, rest: string)
    requires '/' !in name
    ensures var parts := Split("/" + name + "/" + rest, '/');
            |parts| >= 2 && parts[0] == "" && parts[1] == name
  {
    var tail := name + ['/'] + rest;
    assert "/" + name + "/" + rest == "/" + tail;
    SplitRootedTail(name, rest, tail);
  }

  lemma SplitRootedTail(name: string, rest: string, tail: string)
    requires '/' !in name && tail == name + ['/'] + rest
    ensures var parts := Split("/" + tail, '/');
            |parts| >= 2 && parts[0] == "" && parts[1] == name
  {
    SplitAfterSeparator(tail);
    SplitCons(name, '/', rest);
  }

  /** Every request path starting `/../` (such as `/../etc/passwd`) is
      served from the parent of `.`. */
  lemma ParentOfRootIsServed(rest: string)
    ensures StartsWith(ServedPath("/../" + rest), "..")
    ensures Split(ServedPath("/../" + rest), '/')[0] == ".."
  {
    ParentSegmentEscapes("..", rest);
    assert "/" + ".." + "/" + rest == "/../" + rest;
  }

  /** Cleaning a rooted path keeps only ordinary names. */
  lemma {:induction false} RootedNamesOrdinary(names: seq<string>, stack: seq<string>)
    requires forall j | 0 <= j < |names| :: '/' !in names[j]
    requires forall j | 0 <= j < |stack| :: Ordinary(stack[j])
    ensures forall j | 0 <= j < |CleanNames(true, names, stack)| :: Ordinary(CleanNames(true, names, stack)[j])
    decreases |names|
  {
    if |names| > 0 {
      var n := names[0];
      if n == "" || n == "." {
        RootedNamesOrdinary(names[1..], stack);
      } else if n == ".." {
        if |stack| > 0 && stack[|stack| - 1] != ".." {
          RootedNamesOrdinary(names[1..], stack[..|stack| - 1]);
        } else {
          RootedNamesOrdinary(names[1..], stack);
        }
      } else {
        RootedNamesOrdinary(names[1..], stack + [n]);
      }
    }
  }

  /** The served path with the traversal closed: the request path is
      cleaned as a rooted path, so a `..` cannot climb above the root, and
      the remaining names are served relative to `.`. */
  function ServedPathConfined(urlPath: string): (p: string)
    ensures forall j | 0 <= j < |Split(p, '/')| :: Split(p, '/')[j] != ".."
    ensures !StartsWith(p, "/")
  {
    var names := CleanNames(true, Split(urlPath, '/'), []);
    SplitPieces(urlPath, '/');
    RootedNamesOrdinary(Split(urlPath, '/'), []);
    if |names| == 0 then
      assert Split(".", '/') == ["."];
      "."
    else
      SplitJoin(names, '/');
      var p := Join(names, '/');
      assert Split(p, '/') == names;
      assert p[..|names[0]|] == names[0] by { JoinStartsWithFirst(names); }
      assert names[0][0] != '/';
      p
  }

  lemma JoinStartsWithFirst(names: seq<string>)
    requires |names| >= 1
    ensures |Join(names, '/')| >= |names[0]|
    ensures Join(names, '/')[..|names[0]|] == names[0]
  {
    if |names| > 1 {
      assert Join(names, '/') == names[0] + ([ '/' ] + Join(names[1..], '/'));
    }
  }
}

=== FILE: go_range.dfy ===
/** The Range handling both Go servers share when a GET names a file that
    opens: the first six characters of the header are dropped unchecked,
    the rest is split at its first `-`, both halves go through
    `strconv.ParseInt` with the error ignored, and an end of 0 means the
    last byte. The reply's body is what `io.Copy` reads from
    `io.NewSectionReader(file, start, end-start+1)`, and `net/http` drops a
    negative `Content-Length` before writing the header. */
module GoRange {
  import opened Common
  import opened Decimal
  import opened GoStrconv
  import opened Page

  const Two64: int := 0x1_0000_0000_0000_0000

  /** Two's-complement int64 arithmetic: `x` brought into range modulo 2^64. */
  function Wrap64(x: int): (r: int)
    ensures InInt64(r)
    ensures InInt64(x) ==> r == x
    ensures MaxInt64 < x <= MaxInt64 + Two64 ==> r == x - Two64
    ensures MinInt64 - Two64 <= x < MinInt64 ==> r == x + Two64
  {
    var m := x % Two64;
    if m > MaxInt64 then m - Two64 else m
  }

  /** How a `Range` header is read: too short to hold a range, without the
      `-` that the second half needs, or a span. */
  datatype RangeSpec = WholeFile | MissingDash | Span(start: int, end: int)

  /** The reading of a `Range` header (`""` when absent) for a file of
      `size` bytes. The start is never negative, because the text before
      the first `-` has no minus sign; an end of 0 is replaced by `size-1`,
      so it survives only for a one-byte file. */
  function ParseRangeHeader(header: string, size: nat): (r: RangeSpec)
    requires size <= MaxInt64
    ensures r.WholeFile? <==> |header| < 6
    ensures r.MissingDash? <==> |header| >= 6 && forall k | 6 <= k < |header| :: header[k] != '-'
    ensures r.Span? ==> 0 <= r.start <= MaxInt64 && InInt64(r.end)
    ensures r.Span? && r.end == 0 ==> size == 1
  {
    if |header| < 6 then WholeFile
    else
      var spec := header[6..];
      var dash := IndexOf(spec, '-');
      if dash == |spec| then
        assert forall k | 6 <= k < |header| :: header[k] == spec[k - 6];
        MissingDash
      else
        assert header[6 + dash] == '-';
        var start := ParseInt(spec[..dash]);
        assert dash > 0 ==> spec[..dash][0] == spec[0];
        var end := ParseInt(spec[dash + 1..]);
        Span(start, if end == 0 then size - 1 else end)
  }

  /** The bytes `io.Copy` reads from a section reader over `content`
      starting at `off` and limited to `n` bytes. Nothing when `n` is 0 or
      `off` is at or past the end; otherwise up to `n` bytes, cut short at
      the end of the file. A negative `n` overflows the reader's
      `off <= maxint64-n` guard, which then sets no limit: the reader runs
      to the end of the file. */
  function Section(content: seq<byte>, off: nat, n: int): (s: seq<byte>)
    ensures n >= 0 ==> |s| <= n
    ensures |s| > 0 ==> off + |s| <= |content| && s == content[off..off + |s|]
    ensures n != 0 && off < |content| ==>
              |s| == if 0 < n && off + n <= |content| then n else |content| - off
  {
    if n == 0 || off >= |content| then []
    else if 0 < n && off + n <= |content| then content[off..off + n]
    else content[off..]
  }

  /** What the handler does: a reply, or a panic that `net/http` recovers
      from by closing the connection without a reply. */
  datatype Outcome = Reply(response: Response) | Aborted

  /** The text of `fmt.Sprintf("bytes %d-%d/%d", start, end, size)`. */
  function ContentRange(start: int, end: int, size: nat): string {
    "bytes " + IntToString(start) + "-" + IntToString(end) + "/" + NatToString(size)
  }

  /** The reply to a read `Range` header: the whole file with status 200
      and no explicit length; a panic when the second half is missing; or
      206 with `Accept-Ranges: bytes`, a `Content-Range` naming the span and
      the file size, a `Content-Length` of `end-start+1` in int64
      arithmetic unless that is negative, and the section of the file from
      `start` on that this length selects. */
  function Answer(spec: RangeSpec, content: seq<byte>, contentType: string): (o: Outcome)
    requires spec.Span? ==> spec.start >= 0
    ensures spec.WholeFile? ==> o == Reply(Response(200, Some(contentType), None, None, false, Bytes(content)))
    ensures o.Aborted? <==> spec.MissingDash?
    ensures spec.Span? ==> o.Reply? && o.response.status == 206 && o.response.acceptRanges
    ensures o.Reply? ==> o.response.contentType == Some(contentType) && o.response.body.Bytes?
    ensures spec.Span? ==> o.response.contentRange == Some(ContentRange(spec.start, spec.end, |content|))
    ensures spec.Span? ==> var n := Wrap64(spec.end - spec.start + 1);
              o.response.contentLength == if n >= 0 then Some(n) else None
    ensures spec.Span? ==> o.response.body.data == Section(content, spec.start, Wrap64(spec.end - spec.start + 1))
  {
    match spec
    case WholeFile => Reply(Response(200, Some(contentType), None, None, false, Bytes(content)))
    case MissingDash => Aborted
    case Span(start, end) =>
      var n := Wrap64(end - start + 1);
      var length := if n >= 0 then Some(n) else None;
      Reply(Response(206, Some(contentType), length, Some(ContentRange(start, end, |content|)), true,
                     Bytes(Section(content, start, n))))
  }

  /** The reply to a GET on a file that opened, given its `Range` header
      and the content type already chosen. */
  function ServeFile(header: string, content: seq<byte>, contentType: string): (o: Outcome)
    requires |content| <= MaxInt64
    ensures |header| < 6 ==> o == Reply(Response(200, Some(contentType), None, None, false, Bytes(content)))
    ensures o.Aborted? <==> |header| >= 6 && forall k | 6 <= k < |header| :: header[k] != '-'
  {
    Answer(ParseRangeHeader(header, |content|), content, contentType)
  }

  /** Reading back an int64 number written in decimal. */
  lemma ParseIntOfNat(n: nat)
    requires n <= MaxInt64
    ensures ParseInt(NatToString(n)) == n
  {
    ParseIntOfIntToString(n);
  }

  /** After the six dropped characters, a header holding a number and a `-`
      is read as a span starting at that number; `tail` is the end's text. */
  lemma HeaderWithStart(prefix: string, a: nat, tail: string, size: nat)
    requires |prefix| == 6 && a <= MaxInt64 && size <= MaxInt64
    ensures var e := ParseInt(tail);
            ParseRangeHeader(prefix + NatToString(a) + "-" + tail, size) == Span(a, if e == 0 then size - 1 else e)
  {
    var h := prefix + NatToString(a) + "-" + tail;
    var digits := NatToString(a);
    assert h[6..] == digits + ['-'] + tail;
    assert '-' !in digits by {
      forall k | 0 <= k < |digits| ensures digits[k] != '-' {
        assert IsDigit(digits[k]);
      }
    }
    IndexOfPrefix(digits, '-', tail);
    assert h[6..][..|digits|] == digits;
    assert h[6..][|digits| + 1..] == tail;
    ParseIntOfNat(a);
  }

  /** `a-b` is read as the span `a..b`, an end of 0 meaning the last
      byte. */
  lemma SpanOfNumbers(prefix: string, a: nat, b: nat, size: nat)
    requires |prefix| == 6 && a <= MaxInt64 && b <= MaxInt64 && size <= MaxInt64
    ensures ParseRangeHeader(prefix + NatToString(a) + "-" + NatToString(b), size)
         == Span(a, if b == 0 then size - 1 else b)
  {
    HeaderWithStart(prefix, a, NatToString(b), size);
    ParseIntOfNat(b);
  }

  /** `a-` is read as the span from `a` to the last byte. */
  lemma SpanToEnd(prefix: string, a: nat, size: nat)
    requires |prefix| == 6 && a <= MaxInt64 && size <= MaxInt64
    ensures ParseRangeHeader(prefix + NatToString(a) + "-", size) == Span(a, size - 1)
  {
    assert prefix + NatToString(a) + "-" == prefix + NatToString(a) + "-" + "";
    HeaderWithStart(prefix, a, "", size);
  }

  /** A header whose text after the six dropped characters starts with `-`
      is read as a span starting at 0. */
  lemma HeaderWithoutStart(prefix: string, tail: string, size: nat)
    requires |prefix| == 6 && size <= MaxInt64
    ensures var e := ParseInt(tail);
            ParseRangeHeader(prefix + "-" + tail, size) == Span(0, if e == 0 then size - 1 else e)
  {
    var h := prefix + "-" + tail;
    var spec := h[6..];
    assert spec == "" + ['-'] + tail;
    IndexOfPrefix("", '-', tail);
    assert spec[..0] == "";
    assert spec[1..] == tail;
  }

  /** `-b` is read as the span from 0 to `b`, an end of 0 meaning the
      last byte. */
  lemma SpanFromZero(prefix: string, b: nat, size: nat)
    requires |prefix| == 6 && b <= MaxInt64 && size <= MaxInt64
    ensures ParseRangeHeader(prefix + "-" + NatToString(b), size) == Span(0, if b == 0 then size - 1 else b)
  {
    HeaderWithoutStart(prefix, NatToString(b), size);
    ParseIntOfNat(b);
  }

  /** A range `a-b` with `0 < b` inside the file delivers exactly the bytes
      `a..b` inclusive, declares their number as the length, and names the
      file size as the total. */
  lemma ValidRangeDelivers(prefix: string, a: nat, b: nat, content: seq<byte>, contentType: string)
    requires |prefix| == 6 && |content| <= MaxInt64
    requires 0 < b && a <= b < |content|
    ensures var o := ServeFile(prefix + NatToString(a) + "-" + NatToString(b), content, contentType);
            && o.Reply? && o.response.status == 206
            && o.response.body == Bytes(content[a..b + 1])
            && o.response.contentLength == Some(b - a + 1)
            && o.response.contentRange == Some(ContentRange(a, b, |content|))
  {
    var h := prefix + NatToString(a) + "-" + NatToString(b);
    SpanOfNumbers(prefix, a, b, |content|);
    SpanReply(h, content, contentType, a, b);
    SpanAnswer(content, contentType, a, b);
  }

  /** `a-` reads to the end of the file: the empty end parses as 0, which
      becomes `size-1`. */
  lemma OpenEndedRange(prefix: string, a: nat, content: seq<byte>, contentType: string)
    requires |prefix| == 6 && |content| <= MaxInt64
    requires a < |content|
    ensures var o := ServeFile(prefix + NatToString(a) + "-", content, contentType);
            && o.Reply? && o.response.status == 206
            && o.response.body == Bytes(content[a..])
            && o.response.contentLength == Some(|content| - a)
  {
    var h := prefix + NatToString(a) + "-";
    SpanToEnd(prefix, a, |content|);
    SpanReply(h, content, contentType, a, |content| - 1);
    SpanAnswer(content, contentType, a, |content| - 1);
  }

  /** `-b` is not a suffix range: the empty start parses as 0, so the reply
      covers bytes `0..b`, not the last `b` bytes. */
  lemma DashFirstIsPrefixRange(prefix: string, b: nat, content: seq<byte>, contentType: string)
    requires |prefix| == 6 && |content| <= MaxInt64
    requires 0 < b < |content|
    ensures var o := ServeFile(prefix + "-" + NatToString(b), content, contentType);
            && o.Reply? && o.response.status == 206
            && o.response.body == Bytes(content[..b + 1])
  {
    var h := prefix + "-" + NatToString(b);
    SpanFromZero(prefix, b, |content|);
    SpanReply(h, content, contentType, 0, b);
  }

  /** An explicit `0-0` is the whole file, still with status 206. */
  lemma ZeroZeroIsWholeFile(prefix: string, content: seq<byte>, contentType: string)
    requires |prefix| == 6 && 0 < |content| <= MaxInt64
    ensures var o := ServeFile(prefix + NatToString(0) + "-" + NatToString(0), content, contentType);
            && o.Reply? && o.response.status == 206
            && o.response.body == Bytes(content)
            && o.response.contentLength == Some(|content|)
  {
    var h := prefix + NatToString(0) + "-" + NatToString(0);
    SpanOfNumbers(prefix, 0, 0, |content|);
    SpanReply(h, content, contentType, 0, |content| - 1);
    assert content[0..|content|] == content;
  }

  /** Only an end of 0 is normalised: an end past the file is kept, so the
      declared length exceeds the bytes that follow it. */
  lemma EndPastFileOverstatesLength(prefix: string, a: nat, b: nat, content: seq<byte>, contentType: string)
    requires |prefix| == 6 && |content| <= MaxInt64 && b < MaxInt64
    requires a < |content| <= b
    ensures var o := ServeFile(prefix + NatToString(a) + "-" + NatToString(b), content, contentType);
            && o.Reply? && o.response.contentLength == Some(b - a + 1)
            && o.response.body == Bytes(content[a..])
            && b - a + 1 > |content| - a
  {
    var h := prefix + NatToString(a) + "-" + NatToString(b);
    SpanOfNumbers(prefix, a, b, |content|);
    SpanReply(h, content, contentType, a, b);
    SpanAnswer(content, contentType, a, b);
  }

  /** In int64 arithmetic the span `0-` to the largest int64 has a
      negative length: no `Content-Length` is sent, and the section reader,
      left without a limit, sends the whole file. */
  lemma LargestEndWrapsLength(prefix: string, content: seq<byte>, contentType: string, m: nat)
    requires |prefix| == 6 && |content| <= MaxInt64
    requires m == MaxInt64
    ensures var o := ServeFile(prefix + NatToString(0) + "-" + NatToString(m), content, contentType);
            && o.Reply? && o.response.status == 206
            && o.response.contentLength == None
            && o.response.body == Bytes(content)
  {
    var h := prefix + NatToString(0) + "-" + NatToString(m);
    SpanOfNumbers(prefix, 0, m, |content|);
    SpanReply(h, content, contentType, 0, m);
    WrappedSpanAnswer(content, contentType, m);
  }

  /** The reply to a header read as a span. */
  lemma SpanReply(header: string, content: seq<byte>, contentType: string, a: nat, b: int)
    requires |content| <= MaxInt64
    requires ParseRangeHeader(header, |content|) == Span(a, b)
    ensures ServeFile(header, content, contentType) == Answer(Span(a, b), content, contentType)
  {
  }

  /** The reply to a span that starts inside the file and whose length
      fits int64: the declared length is the span's, and the body is the
      span cut at the end of the file. */
  lemma SpanAnswer(content: seq<byte>, contentType: string, a: nat, b: int)
    requires a <= b < MaxInt64 && a < |content|
    ensures var o := Answer(Span(a, b), content, contentType);
            && o.response.contentLength == Some(b - a + 1)
            && (b < |content| ==> o.response.body == Bytes(content[a..b + 1]))
            && (b + 1 >= |content| ==> o.response.body == Bytes(content[a..]))
  {
    assert content[a..|content|] == content[a..];
  }

  /** The span from 0 to the largest int64 wraps to the least int64: no
      length is declared and the whole file is sent. */
  lemma WrappedSpanAnswer(content: seq<byte>, contentType: string, m: nat)
    requires m == MaxInt64
    ensures var o := Answer(Span(0, m), content, contentType);
            && o.response.contentLength == None
            && o.response.body == Bytes(content)
  {
    assert Wrap64(m + 1) == MinInt64;
    assert content[0..] == content;
  }

  /** A span that ends before it starts has a negative length: no length is
      declared, and the tail of the file from the start is sent. */
  lemma ReversedSpanAnswer(content: seq<byte>, contentType: string, a: nat, b: int)
    requires 0 <= b && b + 1 < a < |content| <= MaxInt64
    ensures var o := Answer(Span(a, b), content, contentType);
            && o.response.contentLength == None
            && o.response.body == Bytes(content[a..])
  {
    assert Wrap64(b - a + 1) == b - a + 1;
  }

  /** `a-b` with `0 < b < a - 1`, such as `10-5`, sends the file from `a`
      to its end with status 206 and no `Content-Length`. */
  lemma ReversedRangeSendsTail(prefix: string, a: nat, b: nat, content: seq<byte>, contentType: string)
    requires |prefix| == 6 && |content| <= MaxInt64
    requires 0 < b && b + 1 < a < |content|
    ensures var o := ServeFile(prefix + NatToString(a) + "-" + NatToString(b), content, contentType);
            && o.Reply? && o.response.status == 206
            && o.response.contentLength == None
            && o.response.body == Bytes(content[a..])
            && o.response.contentRange == Some(ContentRange(a, b, |content|))
  {
    var h := prefix + NatToString(a) + "-" + NatToString(b);
    SpanOfNumbers(prefix, a, b, |content|);
    SpanReply(h, content, contentType, a, b);
    ReversedSpanAnswer(content, contentType, a, b);
  }
}

=== FILE: go_server.dfy ===
/** The request handler of the Go server: it stats the served path, lists
    directories for GET, answers HEAD on files from their metadata, and
    serves GET on files whole or by range. Any other verb or kind gets 404.
    The filesystem is a map from served paths to nodes; `url.PathEscape` is
    the parameter `escape`. */
module GoServer {
  import opened Common
  import opened Sizes
  import opened Page
  import opened GoStrconv
  import opened GoPath
  import opened GoContentType
  import opened GoRange

  /** What the handler can see: the node at each path that stats. */
  type FileSystem = map<string, Node>

  /** Every file's size fits `int64`, as `Stat().Size()` requires. */
  predicate SizesFit(fs: FileSystem) {
    forall p | p in fs && fs[p].File? :: |fs[p].content| <= MaxInt64
  }

  /** `IgnoreOnError`: an error is not logged when there is none or when its
      message ends with `: connection reset by peer` or `: broken pipe`. */
  function IgnoreOnError(err: Option<string>): (logged: bool)
    ensures err.None? ==> !logged
    ensures logged ==> !EndsWith(err.value, ": broken pipe")
    ensures logged ==> !EndsWith(err.value, ": connection reset by peer")
    ensures logged <==> err.Some? && !EndsWith(err.value, ": broken pipe")
                        && !EndsWith(err.value, ": connection reset by peer")
  {
    match err
    case None => false
    case Some(msg) => !(EndsWith(msg, ": connection reset by peer") || EndsWith(msg, ": broken pipe"))
  }

  /** A client hanging up is never logged, whatever the error says first;
      the bare words without the `: ` are. */
  lemma HangUpsAreSilent(context: string)
    ensures !IgnoreOnError(Some(context + ": broken pipe"))
    ensures !IgnoreOnError(Some(context + ": connection reset by peer"))
    ensures IgnoreOnError(Some("broken pipe"))
  {
    assert EndsWith(context + ": broken pipe", ": broken pipe");
    assert EndsWith(context + ": connection reset by peer", ": connection reset by peer");
  }

  /** An entry that gets a row: not hidden, not `node_modules`, and its
      stat succeeded. */
  predicate Shown(e: Entry) {
    !IsHidden(e.name) && e.name != "node_modules" && e.meta.Some?
  }

  /** The row of a shown entry: the link is the escaped name, with a `/`
      for a directory, and the icon is chosen from the link; a directory has
      "-" cells, a file its modification time and formatted size. */
  function RowFor(e: Entry, escape: string -> string): (r: Row)
    requires e.meta.Some?
    ensures r.caption == Name(e.name)
    ensures r.icon == ParseIcon(r.href)
    ensures e.meta.value.isDir ==> r.href == escape(e.name) + "/" && r.icon == Folder
    ensures e.meta.value.isDir ==> r.date == Dash && r.size == Dash
    ensures !e.meta.value.isDir ==> r.href == escape(e.name)
    ensures !e.meta.value.isDir ==> r.date == Stamp(e.meta.value.mtime) && r.size == Size(FormatSize(e.meta.value.size))
  {
    var m := e.meta.value;
    var link := if m.isDir then escape(e.name) + "/" else escape(e.name);
    assert m.isDir ==> Ext(link) == "" by {
      if m.isDir {
        assert EndsWith(link, "/");
      }
    }
    if m.isDir then Row(ParseIcon(link), link, Name(e.name), Dash, Dash)
    else Row(ParseIcon(link), link, Name(e.name), Stamp(m.mtime), Size(FormatSize(m.size)))
  }

  /** The rows written for `entries`, in the order given: one for each
      shown entry and none for the others. */
  function Listing(entries: seq<Entry>, escape: string -> string): (rows: seq<Row>)
    ensures |rows| <= |entries|
    ensures forall r | r in rows :: exists e | e in entries :: Shown(e) && r == RowFor(e, escape)
    ensures forall e | e in entries && Shown(e) :: RowFor(e, escape) in rows
    decreases |entries|
  {
    if |entries| == 0 then []
    else
      var e := entries[0];
      var rest := Listing(entries[1..], escape);
      assert forall x | x in entries[1..] :: x in entries;
      if Shown(e) then [RowFor(e, escape)] + rest else rest
  }

  lemma {:induction false} ListingAppend(a: seq<Entry>, b: seq<Entry>, escape: string -> string)
    ensures Listing(a + b, escape) == Listing(a, escape) + Listing(b, escape)
    decreases |a|
  {
    if |a| > 0 {
      assert (a + b)[0] == a[0] && (a + b)[1..] == a[1..] + b;
      ListingAppend(a[1..], b, escape);
    } else {
      assert a + b == b;
    }
  }

  /** The listing page: a heading naming the served path, the "one level up"
      row, the entries' rows, the footer. */
  function ListingPage(path: string, entries: seq<Entry>, escape: string -> string): (page: seq<Fragment>)
    ensures |page| >= 3 && page[0] == Heading(path) && page[1] == RowOf(UpRow) && page[|page| - 1] == Footer
    ensures RowsOf(page) == [UpRow] + Listing(entries, escape)
  {
    Document(path, [UpRow] + Listing(entries, escape))
  }

  /** The handler once the path is resolved: `path` is what is stat-ed and
      served. */
  function HandleAt(path: string, verb: string, rangeHeader: string, fs: FileSystem,
                    escape: string -> string): (o: Outcome)
    requires SizesFit(fs)
    ensures path !in fs ==> o == Reply(StatusOnly(404))
    ensures o.Reply? && o.response.status == 500 <==>
              path in fs && fs[path].Directory? && verb == "GET" && fs[path].entries.None?
    ensures o.Reply? && o.response.status == 403 <==>
              path in fs && fs[path].File? && verb == "GET" && !fs[path].openable
    ensures o.Reply? && o.response.status == 404 <==>
              path !in fs || (fs[path].Directory? && verb != "GET")
              || (fs[path].File? && verb != "GET" && verb != "HEAD")
    ensures path in fs && fs[path].Directory? && verb == "GET" && fs[path].entries.Some? ==>
              o == Reply(Response(200, None, None, None, false, Html(ListingPage(path, fs[path].entries.value, escape))))
    ensures path in fs && fs[path].File? && verb == "HEAD" ==>
              o == Reply(Response(200, Some(ParseType(path)), Some(|fs[path].content|), None, false, NoBody))
    ensures path in fs && fs[path].File? && verb == "GET" && fs[path].openable ==>
              o == ServeFile(rangeHeader, fs[path].content, ParseType(path))
  {
    if path !in fs then Reply(StatusOnly(404))
    else match fs[path]
      case Directory(entries) =>
        if verb != "GET" then Reply(StatusOnly(404))
        else if entries.None? then Reply(StatusOnly(500))
        else Reply(Response(200, None, None, None, false, Html(ListingPage(path, entries.value, escape))))
      case File(content, openable, _) =>
        if verb == "HEAD" then Reply(Response(200, Some(ParseType(path)), Some(|content|), None, false, NoBody))
        else if verb != "GET" then Reply(StatusOnly(404))
        else if !openable then Reply(StatusOnly(403))
        else ServeFile(rangeHeader, content, ParseType(path))
  }

  /** The handler as written: the path is `filepath.Join("./", URL.Path)`. */
  function Handle(verb: string, urlPath: string, rangeHeader: string, fs: FileSystem,
                  escape: string -> string): (o: Outcome)
    requires SizesFit(fs)
    ensures ServedPath(urlPath) !in fs ==> o == Reply(StatusOnly(404))
  {
    HandleAt(ServedPath(urlPath), verb, rangeHeader, fs, escape)
  }

  /** A path none of whose names is `..`: it lies under `.`. */
  predicate Inside(p: string) {
    forall j | 0 <= j < |Split(p, '/')| :: Split(p, '/')[j] != ".."
  }

  /** Two filesystems that look the same under `.`. */
  ghost predicate AgreeInside(fs1: FileSystem, fs2: FileSystem) {
    forall p | Inside(p) :: (p in fs1 <==> p in fs2) && (p in fs1 ==> fs1[p] == fs2[p])
  }

  /** As written, the answer to `/../<rest>` depends on a file outside `.`:
      two filesystems that agree under `.` give different answers. */
  lemma HandleReadsOutside(rest: string, content: seq<byte>, escape: string -> string)
    requires |content| <= MaxInt64
    ensures var outside := ServedPath("/../" + rest);
            var fs1: FileSystem := map[];
            var fs2: FileSystem := map[outside := File(content, true, true)];
            && SizesFit(fs2) && AgreeInside(fs1, fs2)
            && Handle("HEAD", "/../" + rest, "", fs1, escape) == Reply(StatusOnly(404))
            && Handle("HEAD", "/../" + rest, "", fs2, escape).response.status == 200
  {
    var outside := ServedPath("/../" + rest);
    ParentOfRootIsServed(rest);
    assert !Inside(outside) by {
      assert Split(outside, '/')[0] == "..";
    }
  }

  /** The handler with the traversal closed: the request path is cleaned as
      a rooted path before it is served relative to `.`. */
  function HandleConfined(verb: string, urlPath: string, rangeHeader: string, fs: FileSystem,
                          escape: string -> string): (o: Outcome)
    requires SizesFit(fs)
    ensures ServedPathConfined(urlPath) !in fs ==> o == Reply(StatusOnly(404))
  {
    HandleAt(ServedPathConfined(urlPath), verb, rangeHeader, fs, escape)
  }

  /** With the traversal closed, nothing outside `.` can affect an answer. */
  lemma ConfinedIgnoresOutside(verb: string, urlPath: string, rangeHeader: string,
                               fs1: FileSystem, fs2: FileSystem, escape: string -> string)
    requires SizesFit(fs1) && SizesFit(fs2)
    requires AgreeInside(fs1, fs2)
    ensures HandleConfined(verb, urlPath, rangeHeader, fs1, escape)
         == HandleConfined(verb, urlPath, rangeHeader, fs2, escape)
  {
    var p := ServedPathConfined(urlPath);
    assert Inside(p);
  }
}

=== FILE: go_strconv.dfy ===
/** Go's `strconv.ParseInt(s, 10, 64)` with its error dropped, as the Go
    servers call it on the two halves of a `Range` header. A syntax error
    yields 0; an out-of-range value yields the nearest int64 bound. The
    unsigned scan stops at the first digit that overflows, so a later
    non-digit is never looked at. */
module GoStrconv {
  import opened Decimal

  const MaxUint64: nat := 0xFFFF_FFFF_FFFF_FFFF
  const MaxInt64: int := 0x7FFF_FFFF_FFFF_FFFF
  const MinInt64: int := -0x8000_0000_0000_0000

  predicate InInt64(i: int) {
    MinInt64 <= i <= MaxInt64
  }

  datatype UintScan = SyntaxError | RangeError | Parsed(n: nat)

  /** The digit loop of `strconv.ParseUint`, base 10, continuing from `acc`. */
  function ScanUint(s: string, acc: nat): (r: UintScan)
    requires acc <= MaxUint64
    ensures r.Parsed? ==> r.n <= MaxUint64 && AllDigits(s)
    decreases |s|
  {
    if |s| == 0 then Parsed(acc)
    else if !IsDigit(s[0]) then SyntaxError
    else
      var next := 10 * acc + DigitValue(s[0]);
      if next > MaxUint64 then RangeError else ScanUint(s[1..], next)
  }

  function ParseUint(s: string): UintScan {
    if |s| == 0 then SyntaxError else ScanUint(s, 0)
  }

  /** The value `strconv.ParseInt(s, 10, 64)` returns, error ignored. */
  function ParseInt(s: string): (r: int)
    ensures InInt64(r)
    ensures |s| == 0 ==> r == 0
    ensures r < 0 ==> s[0] == '-'
    ensures (forall i | 0 <= i < |s| :: !IsDigit(s[i])) ==> r == 0
    ensures |s| > 0 && ParseUint(DigitPart(s)).SyntaxError? ==> r == 0
  {
    if |s| == 0 then 0
    else
      var neg := s[0] == '-';
      var digits := DigitPart(s);
      assert (forall i | 0 <= i < |s| :: !IsDigit(s[i])) ==>
        (|digits| == 0 || !IsDigit(digits[0]));
      match ParseUint(digits)
      case SyntaxError => 0
      case RangeError => if neg then MinInt64 else MaxInt64
      case Parsed(u) =>
        if !neg then (if u > MaxInt64 then MaxInt64 else u as int)
        else (if u > -MinInt64 then MinInt64 else -(u as int))
  }

  /** What `ParseInt` hands to `ParseUint`: the text after one leading sign. */
  function DigitPart(s: string): (d: string)
    requires |s| > 0
    ensures |d| == |s| - 1 || d == s
  {
    if s[0] == '+' || s[0] == '-' then s[1..] else s
  }

  /** The scan fails at the first non-digit, provided the digits before
      it have not already overflowed. */
  lemma {:induction false} ScanUintStopsAtNonDigit(a: string, c: char, b: string, acc: nat)
    requires acc <= MaxUint64
    requires AllDigits(a) && Fold(acc, a) <= MaxUint64 && !IsDigit(c)
    ensures ScanUint(a + [c] + b, acc) == SyntaxError
    decreases |a|
  {
    if |a| == 0 {
      assert a + [c] + b == [c] + b;
    } else {
      var next := 10 * acc + DigitValue(a[0]);
      FoldGrows(next, a[1..]);
      assert (a + [c] + b)[0] == a[0];
      assert (a + [c] + b)[1..] == a[1..] + [c] + b;
      ScanUintStopsAtNonDigit(a[1..], c, b, next);
    }
  }

  /** A number followed by anything that is not a digit, as in "5x" or
      "1+2", parses to 0: the whole text is a syntax error, not a prefix
      read up to the stray character. */
  lemma ParseIntOfTrailingJunk(sign: string, a: string, c: char, b: string)
    requires sign == "" || sign == "+" || sign == "-"
    requires AllDigits(a) && Fold(0, a) <= MaxUint64 && !IsDigit(c)
    requires sign == "" && a == "" ==> c != '+' && c != '-'
    ensures ParseInt(sign + a + [c] + b) == 0
  {
    var t := a + [c] + b;
    assert t[0] == if a == "" then c else a[0];
    assert sign + a + [c] + b == sign + t;
    DigitPartAfterSign(sign, t);
    ScanUintStopsAtNonDigit(a, c, b, 0);
    assert ParseUint(DigitPart(sign + t)) == SyntaxError;
  }

  lemma DigitPartAfterSign(sign: string, t: string)
    requires sign == "" || sign == "+" || sign == "-"
    requires |t| > 0 && (sign == "" ==> t[0] != '+' && t[0] != '-')
    ensures |sign + t| > 0 && DigitPart(sign + t) == t
  {
    if sign != "" {
      assert (sign + t)[1..] == t;
    }
  }

  /** On a run of digits the scan either yields their value or, when that
      value does not fit 64 bits, a range error. */
  lemma {:induction false} ScanUintDigits(s: string, acc: nat)
    requires acc <= MaxUint64
    requires AllDigits(s)
    ensures ScanUint(s, acc) == if Fold(acc, s) <= MaxUint64 then Parsed(Fold(acc, s)) else RangeError
    decreases |s|
  {
    if |s| > 0 {
      var next := 10 * acc + DigitValue(s[0]);
      FoldGrows(next, s[1..]);
      if next <= MaxUint64 {
        ScanUintDigits(s[1..], next);
      }
    }
  }

  /** Reading back the `%d` text of any int64 gives the same number. */
  lemma ParseIntOfIntToString(i: int)
    requires InInt64(i)
    ensures ParseInt(IntToString(i)) == i
  {
    var m: nat := if i < 0 then -i else i;
    var digits := NatToString(m);
    NatToStringRoundTrip(m);
    ScanUintDigits(digits, 0);
    assert ParseUint(digits) == Parsed(m);
    if i < 0 {
      assert IntToString(i)[1..] == digits;
    } else {
      assert IntToString(i) == digits;
    }
  }
}

=== FILE: js_format.dfy ===
/** The small helpers of the Bun server: `formatSize`, `formatDate`,
    `parseRange`, Node's `path.posix.extname` and `fetchIcon`. */
module JsFormat {
  import opened Common
  import opened Decimal
  import opened Sizes
  import opened Page
  import opened Extensions

  /** `formatSize`: `"-"` for `null`, otherwise the size in the unit chosen
      by the same thresholds as the Go and C++ servers. */
  function JsFormatSize(size: Option<nat>): (c: Cell)
    ensures size.None? <==> c == Dash
    ensures size.Some? ==> c.Size? && c.shown.size == size.value
    ensures size.Some? ==> (c.shown.unit == G <==> 10 * size.value > 11 * GiB)
    ensures size.Some? ==> (c.shown.unit == M <==> 11 * MiB < 10 * size.value <= 11 * GiB)
    ensures size.Some? ==> (c.shown.unit == K <==> 10 * size.value <= 11 * MiB)
  {
    match size
    case None => Dash
    case Some(n) => Size(FormatSize(n))
  }

  /** `padStart(width, '0')`: zeros on the left up to `width` characters;
      a longer text is left alone. */
  function PadStart(s: string, width: nat): (r: string)
    ensures |r| == if |s| >= width then |s| else width
    ensures EndsWith(r, s)
    ensures forall i | 0 <= i < |r| - |s| :: r[i] == '0'
  {
    var r := seq(if |s| >= width then 0 else width - |s|, _ => '0') + s;
    assert r[|r| - |s|..] == s;
    r
  }

  /** A field of the date: the decimal text of `n`, zero-padded. */
  function Field(n: nat, width: nat): string {
    PadStart(NatToString(n), width)
  }

  /** `formatDate`: `"-"` for no date, otherwise `YYYY-MM-DD HH:MM` with a
      month counted from 1. */
  function FormatDate(date: Option<LocalTime>): (s: string)
    ensures date.None? <==> s == "-"
    ensures date.Some? ==> |s| >= 16
  {
    match date
    case None => "-"
    case Some(t) =>
      Field(t.year, 4) + "-" + Field(t.month0 + 1, 2) + "-" + Field(t.day, 2) + " "
        + Field(t.hours, 2) + ":" + Field(t.minutes, 2)
  }

  /** Reads a `YYYY-MM-DD HH:MM` text back into a local time. */
  function ReadDate(s: string): Option<LocalTime> {
    if |s| == 16 && s[4] == '-' && s[7] == '-' && s[10] == ' ' && s[13] == ':'
       && AllDigits(s[..4]) && AllDigits(s[5..7]) && AllDigits(s[8..10])
       && AllDigits(s[11..13]) && AllDigits(s[14..]) && DigitsValue(s[5..7]) >= 1
    then Some(LocalTime(DigitsValue(s[..4]), DigitsValue(s[5..7]) - 1, DigitsValue(s[8..10]),
                        DigitsValue(s[11..13]), DigitsValue(s[14..])))
    else None
  }

  /** A field that fits its width is exactly `width` digits and reads back
      as its value. */
  lemma FieldFits(n: nat, width: nat)
    requires width >= 1 && n < Pow10(width)
    ensures |Field(n, width)| == width
    ensures AllDigits(Field(n, width))
    ensures DigitsValue(Field(n, width)) == n
  {
    NatToStringLength(n, width);
    var s := NatToString(n);
    var f := Field(n, width);
    var z := f[..|f| - |s|];
    assert f == z + s;
    FoldLeadingZeros(z, s);
    NatToStringRoundTrip(n);
  }

  /** Every date whose fields fit their widths is printed as a text that
      reads back as the same date. */
  lemma FormatDateRoundTrip(t: LocalTime)
    requires t.year < 10000 && t.month0 < 99 && t.day < 100 && t.hours < 100 && t.minutes < 100
    ensures ReadDate(FormatDate(Some(t))) == Some(t)
  {
    var y, mo, d, h, mi := Field(t.year, 4), Field(t.month0 + 1, 2), Field(t.day, 2),
                           Field(t.hours, 2), Field(t.minutes, 2);
    FieldsFit(t);
    ReadLayout(y, mo, d, h, mi);
    assert FormatDate(Some(t)) == y + "-" + mo + "-" + d + " " + h + ":" + mi;
  }

  /** The five fields of a date that fits are digits of their widths,
      reading back as the date's numbers. */
  lemma FieldsFit(t: LocalTime)
    requires t.year < 10000 && t.month0 < 99 && t.day < 100 && t.hours < 100 && t.minutes < 100
    ensures |Field(t.year, 4)| == 4 && AllDigits(Field(t.year, 4)) && DigitsValue(Field(t.year, 4)) == t.year
    ensures |Field(t.month0 + 1, 2)| == 2 && AllDigits(Field(t.month0 + 1, 2)) && DigitsValue(Field(t.month0 + 1, 2)) == t.month0 + 1
    ensures |Field(t.day, 2)| == 2 && AllDigits(Field(t.day, 2)) && DigitsValue(Field(t.day, 2)) == t.day
    ensures |Field(t.hours, 2)| == 2 && AllDigits(Field(t.hours, 2)) && DigitsValue(Field(t.hours, 2)) == t.hours
    ensures |Field(t.minutes, 2)| == 2 && AllDigits(Field(t.minutes, 2)) && DigitsValue(Field(t.minutes, 2)) == t.minutes
  {
    FieldFits(t.year, 4);
    FieldFits(t.month0 + 1, 2);
    FieldFits(t.day, 2);
    FieldFits(t.hours, 2);
    FieldFits(t.minutes, 2);
  }

  /** Five digit fields of the right widths, laid out as `formatDate` does,
      read back as their values, the month shifted down by one. */
  lemma ReadLayout(y: string, mo: string, d: string, h: string, mi: string)
    requires |y| == 4 && |mo| == 2 && |d| == 2 && |h| == 2 && |mi| == 2
    requires AllDigits(y) && AllDigits(mo) && AllDigits(d) && AllDigits(h) && AllDigits(mi)
    requires DigitsValue(mo) >= 1
    ensures ReadDate(y + "-" + mo + "-" + d + " " + h + ":" + mi)
         == Some(LocalTime(DigitsValue(y), DigitsValue(mo) - 1, DigitsValue(d), DigitsValue(h), DigitsValue(mi)))
  {
    DateLayout(y, mo, d, h, mi);
  }

  /** Where the separators and the five fields sit in a printed date. */
  lemma DateLayout(y: string, mo: string, d: string, h: string, mi: string)
    requires |y| == 4 && |mo| == 2 && |d| == 2 && |h| == 2 && |mi| == 2
    ensures var s := y + "-" + mo + "-" + d + " " + h + ":" + mi;
            && |s| == 16 && s[4] == '-' && s[7] == '-' && s[10] == ' ' && s[13] == ':'
            && s[..4] == y && s[5..7] == mo && s[8..10] == d && s[11..13] == h && s[14..] == mi
  {
    var a := y + "-" + mo;
    var b := a + "-" + d;
    var c := b + " " + h;
    var s := c + ":" + mi;
    assert a[..4] == y && a[5..] == mo;
    assert b[..7] == a && b[8..] == d;
    assert c[..10] == b && c[11..] == h;
    assert s[..13] == c && s[14..] == mi;
    assert s[..4] == a[..4];
    assert s[5..7] == a[5..];
    assert s[8..10] == b[8..];
    assert s[11..13] == c[11..];
  }

  /** A piece of the `Range` value after `Number`: `null` for an empty
      piece, the value of a run of decimal digits, `NaN` otherwise. */
  datatype Bound = Null | Num(n: nat) | NaN

  function JsNumber(v: string): (b: Bound)
    ensures b == Null <==> v == ""
    ensures b.Num? ==> AllDigits(v) && b.n == DigitsValue(v)
    ensures v != "" && AllDigits(v) ==> b == Num(DigitsValue(v))
    ensures v != "" && !AllDigits(v) ==> b == NaN
  {
    if v == "" then Null
    else if AllDigits(v) then Num(DigitsValue(v))
    else NaN
  }

  /** `parseRange`: no header (or an empty one) gives `[null, null]`;
      otherwise the text after the last `=` is split at every `-` and each
      piece goes through `JsNumber`. */
  function ParseRange(range: Option<string>): (b: seq<Bound>)
    ensures range.None? ==> b == [Null, Null]
    ensures range.Some? && range.value != "" ==>
              var pieces := Split(AfterLast(range.value, '='), '-');
              |b| == |pieces| && forall i | 0 <= i < |b| :: b[i] == JsNumber(pieces[i])
  {
    if range.None? || range.value == "" then [Null, Null]
    else
      var pieces := Split(AfterLast(range.value, '='), '-');
      seq(|pieces|, i requires 0 <= i < |pieces| => JsNumber(pieces[i]))
  }

  /** `split(sep).at(-1)`: the last piece of a split. */
  function AfterLast(s: string, sep: char): (t: string)
    ensures sep !in t && EndsWith(s, t)
  {
    var parts := Split(s, sep);
    SplitPieces(s, sep);
    SplitSuffix(s, sep);
    parts[|parts| - 1]
  }

  lemma {:induction false} SplitSuffix(s: string, sep: char)
    ensures EndsWith(s, Split(s, sep)[|Split(s, sep)| - 1])
    decreases |s|
  {
    var i := IndexOf(s, sep);
    if i < |s| {
      SplitSuffix(s[i + 1..], sep);
      var tail := s[i + 1..];
      var last := Split(tail, sep)[|Split(tail, sep)| - 1];
      assert Split(s, sep)[|Split(s, sep)| - 1] == last;
      assert s[|s| - |last|..] == tail[|tail| - |last|..];
    }
  }

  /** The last piece of `s + [sep] + t` is `t` when `t` holds no `sep`. */
  lemma {:induction false} SplitLast(s: string, sep: char, t: string)
    requires sep !in t
    ensures Split(s + [sep] + t, sep)[|Split(s + [sep] + t, sep)| - 1] == t
    decreases |s|
  {
    var i := IndexOf(s, sep);
    if i == |s| {
      SplitCons(s, sep, t);
      SplitWhole(t, sep);
    } else {
      var rest := s[i + 1..] + [sep] + t;
      assert s + [sep] + t == s[..i] + [sep] + rest;
      SplitCons(s[..i], sep, rest);
      SplitLast(s[i + 1..], sep, t);
    }
  }

  /** `bytes=<a>-<b>` gives `[a, b]`, whatever precedes the `=`. */
  lemma ParseRangeOfNumbers(prefix: string, a: nat, b: nat)
    ensures ParseRange(Some(prefix + "=" + NatToString(a) + "-" + NatToString(b))) == [Num(a), Num(b)]
  {
    var sa := NatToString(a);
    var sb := NatToString(b);
    NatToStringRoundTrip(a);
    NatToStringRoundTrip(b);
    NoSignInDigits(sa);
    NoSignInDigits(sb);
    NumbersAfterEquals(prefix, sa, sb);
  }

  /** `bytes=<a>-` gives `[a, null]`. */
  lemma ParseRangeOpenEnded(prefix: string, a: nat)
    ensures ParseRange(Some(prefix + "=" + NatToString(a) + "-")) == [Num(a), Null]
  {
    var sa := NatToString(a);
    NatToStringRoundTrip(a);
    NoSignInDigits(sa);
    NumbersAfterEquals(prefix, sa, []);
    assert prefix + "=" + sa + "-" + [] == prefix + "=" + sa + "-";
  }

  /** `bytes=-<b>` gives `[null, b]`: the suffix form is not understood. */
  lemma ParseRangeSuffix(prefix: string, b: nat)
    ensures ParseRange(Some(prefix + "=" + "-" + NatToString(b))) == [Null, Num(b)]
  {
    var sb := NatToString(b);
    NatToStringRoundTrip(b);
    NoSignInDigits(sb);
    NumbersAfterEquals(prefix, [], sb);
    assert prefix + "=" + [] == prefix + "=";
  }

  lemma NoSignInDigits(s: string)
    requires AllDigits(s)
    ensures '=' !in s && '-' !in s
  {
    assert forall i | 0 <= i < |s| :: IsDigit(s[i]);
  }

  lemma NumbersAfterEquals(prefix: string, x: string, y: string)
    requires '=' !in x && '=' !in y && '-' !in x && '-' !in y
    ensures var v := prefix + "=" + x + "-" + y;
            AfterLast(v, '=') == x + "-" + y
            && ParseRange(Some(v)) == [JsNumber(x), JsNumber(y)]
  {
    var t := x + "-" + y;
    var v := prefix + "=" + x + "-" + y;
    assert AfterLast(v, '=') == t by {
      assert v == prefix + "=" + t;
      AfterLastEquals(prefix, t);
    }
    assert Split(t, '-') == [x, y] by {
      SplitPair(x, y);
    }
    RangeOfPieces(v, x, y);
  }

  /** A header whose last `=` is followed by two pieces gives their two
      numbers. */
  lemma RangeOfPieces(v: string, x: string, y: string)
    requires v != "" && Split(AfterLast(v, '='), '-') == [x, y]
    ensures ParseRange(Some(v)) == [JsNumber(x), JsNumber(y)]
  {
  }

  /** The text after the last `=` of `prefix + "=" + t`, with `t` free of
      `=`, is `t`. */
  lemma AfterLastEquals(prefix: string, t: string)
    requires '=' !in t
    ensures AfterLast(prefix + "=" + t, '=') == t
  {
    SplitLast(prefix, '=', t);
    assert prefix + "=" + t == prefix + ['='] + t;
  }

  /** `x-y` splits at its one `-` into `x` and `y`. */
  lemma SplitPair(x: string, y: string)
    requires '-' !in x && '-' !in y
    ensures Split(x + "-" + y, '-') == [x, y]
  {
    SplitCons(x, '-', y);
    assert x + "-" + y == x + ['-'] + y;
    assert Split(y, '-') == [y];
  }

  /** The end of a path with its trailing slashes removed. */
  function TrimTrailingSlashes(p: string): (r: string)
    ensures |r| <= |p| && p[..|r|] == r
    ensures r == "" || r[|r| - 1] != '/'
    ensures forall i | |r| <= i < |p| :: p[i] == '/'
    decreases |p|
  {
    if |p| > 0 && p[|p| - 1] == '/' then TrimTrailingSlashes(p[..|p| - 1]) else p
  }

  /** Node's `path.posix.extname`: from the last `.` of the final name,
      trailing slashes ignored, except that a name starting with its only
      dot, and the name `..`, have none. */
  function Extname(path: string): (e: string)
    ensures e == "" || (e[0] == '.' && '/' !in e && EndsWith(TrimTrailingSlashes(path), e))
    ensures forall k | 1 <= k < |e| :: e[k] != '.'
  {
    var name := LastName(TrimTrailingSlashes(path));
    var d := LastIndex(name, '.');
    if d <= 0 || name == ".." then ""
    else
      SuffixOfSuffix(TrimTrailingSlashes(path), name, d);
      name[d..]
  }

  /** Trailing slashes do not change the extension: `clip.mp4/` has
      `.mp4`. */
  lemma ExtnameIgnoresTrailingSlash(path: string)
    ensures Extname(path + "/") == Extname(path)
  {
    var p := path + "/";
    assert p[..|p| - 1] == path;
  }

  /** A name starting with a dot and holding no other has no extension. */
  lemma DotFileHasNoExtname(rest: string)
    requires '.' !in rest && '/' !in rest
    ensures Extname("." + rest) == ""
  {
    var p := "." + rest;
    assert p == "" || p[|p| - 1] != '/';
    assert TrimTrailingSlashes(p) == p;
    LastIndexAbsent(p, '/');
    assert LastName(p) == p;
    assert p == [] + ['.'] + rest;
    LastIndexBeforeSuffix([], '.', rest);
  }

  /** `stem.ext` has extension `.ext`. */
  lemma ExtnameOfStem(stem: string, ext: string)
    requires '/' !in stem && '.' !in stem && stem != ""
    requires |ext| >= 2 && ext[0] == '.' && '.' !in ext[1..] && '/' !in ext
    ensures Extname(stem + ext) == ext
  {
    var p := stem + ext;
    assert p[|p| - 1] == ext[|ext| - 1];
    LastIndexAbsent(p, '/');
    LastIndexAtSuffix(stem, ext, '.');
  }

  /** The extensions `fetchIcon` lists: all the shared ones but `.c`, `.h`
      and `.ico`. */
  predicate HasIcon(k: Option<Known>) {
    k.Some? && k.value != C && k.value != H && k.value != Ico
  }

  /** `fetchIcon`: by the extension of the link; with none recognised, the
      up arrow for exactly `../`, the folder for another link ending in
      `/`, and nothing for the rest. The up link is tested first here;
      it has no extension, so the order makes no difference. */
  function FetchIcon(path: string): (i: Icon)
    ensures i == UpArrow <==> path == "../"
    ensures i == Folder <==> !HasIcon(Recognise(Extname(path))) && EndsWith(path, "/") && path != "../"
    ensures i == NoIcon <==> !HasIcon(Recognise(Extname(path))) && !EndsWith(path, "/")
    ensures HasIcon(Recognise(Extname(path))) ==> i == FamilyIcon(FamilyOf(Recognise(Extname(path)).value))
  {
    var k := Recognise(Extname(path));
    if path == "../" then
      UpLinkHasNoExtname(path);
      UpArrow
    else if HasIcon(k) then FamilyIcon(FamilyOf(k.value))
    else if EndsWith(path, "/") then Folder
    else NoIcon
  }

  /** A link named after a listed extension gets that extension's family
      icon, the same one the Go and C++ servers show. */
  lemma ListedLinkIcon(stem: string, k: Known)
    requires '/' !in stem && '.' !in stem && stem != ""
    requires HasIcon(Some(k))
    ensures FetchIcon(stem + Spelling(k)) == FamilyIcon(FamilyOf(k))
  {
    LinkExtension(stem, k);
  }

  /** The extension of `stem` followed by a spelling is recognised as that
      spelling's extension. */
  lemma LinkExtension(stem: string, k: Known)
    requires '/' !in stem && '.' !in stem && stem != ""
    ensures Recognise(Extname(stem + Spelling(k))) == Some(k)
  {
    ExtnameOfStem(stem, Spelling(k));
    RecogniseSpelling(k);
  }

  /** `.c` and `.h` files, which the Go server shows with the code icon,
      get no icon here. */
  lemma HeaderFileHasNoIcon(stem: string, k: Known)
    requires '/' !in stem && '.' !in stem && stem != ""
    requires k == C || k == H
    ensures FetchIcon(stem + Spelling(k)) == NoIcon
  {
    LinkExtension(stem, k);
  }

  lemma UpLinkHasNoExtname(path: string)
    requires path == "../"
    ensures Extname(path) == ""
  {
    assert TrimTrailingSlashes(path) == ".." by {
      assert path[..|path| - 1] == "..";
    }
    assert LastIndex("..", '/') == -1;
    assert LastName("..") == "..";
  }
}

=== FILE: js_server.dfy ===
/** The request handling of the Bun server. A request's path is served as
    the name `join("./", path)` after `decodeURIComponent` has decoded each
    piece between slashes; a name that does not stat gets 404, and
    otherwise the route table, keyed by method and kind, picks one of four
    handlers. The filesystem is a map from served names to nodes;
    `encodeURIComponent` is the parameter `encode`, `decodeURIComponent`
    the parameter `decode` (`None` where it throws), `join("./", ·)` the
    parameter `resolve`, and the MIME type Bun infers for a file is the
    parameter `fileType`. */
module JsServer {
  import opened Common
  import opened Decimal
  import opened Sizes
  import opened Page
  import opened JsFormat

  type FileSystem = map<string, Node>

  /** What `stat` says a name is: a directory, a regular file, or neither. */
  datatype Kind = DirectoryKind | FileKind | UnknownKind

  function KindOf(n: Node): Kind {
    match n
    case Directory(_) => DirectoryKind
    case File(_, _, regular) => if regular then FileKind else UnknownKind
  }

  function KindName(k: Kind): (s: string)
    ensures ':' !in s
  {
    match k
    case DirectoryKind => "directory"
    case FileKind => "file"
    case UnknownKind => "unknown"
  }

  datatype Handler = HeadFile | GetFile | GetDirectory | HeadDirectory

  /** The key `METHOD:kind` under which `handleFile` and `handleDirectory`
      register a handler. */
  function RouteKeyOf(verb: string, k: Kind): string {
    verb + ":" + KindName(k)
  }

  /** The route table, as the four registrations leave it. */
  const Routes: map<string, Handler> :=
    map[RouteKeyOf("HEAD", FileKind) := HeadFile, RouteKeyOf("GET", FileKind) := GetFile,
        RouteKeyOf("GET", DirectoryKind) := GetDirectory, RouteKeyOf("HEAD", DirectoryKind) := HeadDirectory]

  /** A key `verb:kind` names its parts back: the kind is what follows the
      last `:`. */
  lemma RouteKey(verb: string, kind: string, v2: string, k2: string)
    requires ':' !in kind && ':' !in k2
    ensures verb + ":" + kind == v2 + ":" + k2 <==> verb == v2 && kind == k2
  {
    if verb + ":" + kind == v2 + ":" + k2 {
      var s := verb + ":" + kind;
      assert s == verb + [':'] + kind && s == v2 + [':'] + k2;
      LastIndexBeforeSuffix(verb, ':', kind);
      LastIndexBeforeSuffix(v2, ':', k2);
      assert s[..|verb|] == verb;
      assert s[|verb| + 1..] == kind;
    }
  }

  /** The handler for a method and kind: only GET and HEAD, on directories
      and regular files, have one. */
  function Route(verb: string, k: Kind): (h: Option<Handler>)
    ensures h == Some(HeadFile) <==> verb == "HEAD" && k == FileKind
    ensures h == Some(GetFile) <==> verb == "GET" && k == FileKind
    ensures h == Some(GetDirectory) <==> verb == "GET" && k == DirectoryKind
    ensures h == Some(HeadDirectory) <==> verb == "HEAD" && k == DirectoryKind
    ensures h.None? <==> (verb != "GET" && verb != "HEAD") || k == UnknownKind
  {
    var key := RouteKeyOf(verb, k);
    RouteKey(verb, KindName(k), "HEAD", KindName(FileKind));
    RouteKey(verb, KindName(k), "GET", KindName(FileKind));
    RouteKey(verb, KindName(k), "GET", KindName(DirectoryKind));
    RouteKey(verb, KindName(k), "HEAD", KindName(DirectoryKind));
    assert "GET" != "HEAD";
    if key in Routes then Some(Routes[key]) else None
  }

  /** Why a handler's promise is rejected instead of giving a response. */
  datatype Failure = ReferenceError | StatFailed | ReadDirFailed | URIError

  datatype Outcome = Answer(response: Response) | Rejected(failure: Failure)

  /** `handleNotFound`: 404, with no body for HEAD and `<kind> not found`
      for other methods. */
  function NotFound(verb: string, what: string): (r: Response)
    ensures r.status == 404 && r.contentType.None? && r.contentRange.None?
    ensures verb == "HEAD" <==> r.body == NoBody
    ensures verb != "HEAD" ==> r.body == PlainText(what + " not found")
  {
    if verb == "HEAD" then StatusOnly(404)
    else Response(404, None, None, None, false, PlainText(what + " not found"))
  }

  /** The link written for the parent directory. */
  const JsUpRow: Row := Row(UpArrow, "../", UpLevel, Dash, Dash)

  /** `SourceBuilder.file` for an entry whose stat succeeded: the link is
      the encoded name, with a `/` for a directory, the icon is chosen from
      the link, the date is always shown and the size is "-" for a
      directory. */
  function EntryRow(name: string, m: Meta, encode: string -> string): (r: Row)
    ensures r.caption == Name(name) && r.icon == FetchIcon(r.href)
    ensures m.isDir ==> r.href == encode(name) + "/" && r.size == Dash
    ensures !m.isDir ==> r.href == encode(name) && r.size == JsFormatSize(Some(m.size))
    ensures r.date == Text(FormatDate(Some(m.mtime)))
  {
    var link := if m.isDir then encode(name) + "/" else encode(name);
    Row(FetchIcon(link), link, Name(name), Text(FormatDate(Some(m.mtime))),
        JsFormatSize(if m.isDir then None else Some(m.size)))
  }

  function RowBuilder(encode: string -> string): (string, Meta) -> Row {
    (name, m) => EntryRow(name, m, encode)
  }

  /** Every entry not hidden is stat-ed, in order; the first failed stat
      rejects the whole listing. */
  predicate AllStat(entries: seq<Entry>) {
    forall i | 0 <= i < |entries| :: !IsHidden(entries[i].name) ==> entries[i].meta.Some?
  }

  lemma AllStatCons(entries: seq<Entry>)
    requires |entries| > 0
    ensures AllStat(entries) <==>
              (!IsHidden(entries[0].name) ==> entries[0].meta.Some?) && AllStat(entries[1..])
  {
    if (!IsHidden(entries[0].name) ==> entries[0].meta.Some?) && AllStat(entries[1..]) {
      forall i | 0 <= i < |entries| && !IsHidden(entries[i].name) ensures entries[i].meta.Some? {
        if i > 0 { assert entries[i] == entries[1..][i - 1]; }
      }
    }
  }

  /** The rows `row` builds for the entries, or `None` when a stat throws;
      hidden names are skipped without a stat. */
  function StatRows(entries: seq<Entry>, row: (string, Meta) -> Row): (rows: Option<seq<Row>>)
    ensures rows.Some? <==> AllStat(entries)
    ensures rows.Some? ==> |rows.value| <= |entries|
    decreases |entries|
  {
    if |entries| == 0 then Some([])
    else
      var e := entries[0];
      var rest := StatRows(entries[1..], row);
      AllStatCons(entries);
      if IsHidden(e.name) then rest
      else if e.meta.None? then None
      else if rest.None? then None
      else Some([row(e.name, e.meta.value)] + rest.value)
  }

  /** The rows of `directory` for `entries`. */
  function EntryRows(entries: seq<Entry>, encode: string -> string): (rows: Option<seq<Row>>)
    ensures rows.Some? <==> AllStat(entries)
    ensures rows.Some? ==> |rows.value| <= |entries|
  {
    StatRows(entries, RowBuilder(encode))
  }

  /** Every row comes from an entry that is not hidden, and every such
      entry has its row: there is no filter but the leading dot. */
  lemma EntryRowsContents(entries: seq<Entry>, encode: string -> string)
    requires AllStat(entries)
    ensures forall r | r in EntryRows(entries, encode).value ::
              exists e | e in entries :: !IsHidden(e.name) && e.meta.Some? && r == EntryRow(e.name, e.meta.value, encode)
    ensures forall e | e in entries && !IsHidden(e.name) ::
              e.meta.Some? && EntryRow(e.name, e.meta.value, encode) in EntryRows(entries, encode).value
  {
    StatRowsSound(entries, RowBuilder(encode));
    StatRowsComplete(entries, RowBuilder(encode));
  }

  lemma {:induction false} StatRowsSound(entries: seq<Entry>, row: (string, Meta) -> Row)
    requires AllStat(entries)
    ensures forall r | r in StatRows(entries, row).value ::
              exists e | e in entries :: !IsHidden(e.name) && e.meta.Some? && r == row(e.name, e.meta.value)
    decreases |entries|
  {
    if |entries| > 0 {
      AllStatCons(entries);
      var tail := entries[1..];
      StatRowsSound(tail, row);
      forall r | r in StatRows(entries, row).value
        ensures exists e | e in entries :: !IsHidden(e.name) && e.meta.Some? && r == row(e.name, e.meta.value)
      {
        if r in StatRows(tail, row).value {
          var e :| e in tail && !IsHidden(e.name) && e.meta.Some? && r == row(e.name, e.meta.value);
          assert e in entries;
        } else {
          assert entries[0] in entries;
        }
      }
    }
  }

  lemma {:induction false} StatRowsComplete(entries: seq<Entry>, row: (string, Meta) -> Row)
    requires AllStat(entries)
    ensures forall e | e in entries && !IsHidden(e.name) ::
              e.meta.Some? && row(e.name, e.meta.value) in StatRows(entries, row).value
    decreases |entries|
  {
    if |entries| > 0 {
      AllStatCons(entries);
      var tail := entries[1..];
      StatRowsComplete(tail, row);
      forall e | e in entries && !IsHidden(e.name)
        ensures e.meta.Some? && row(e.name, e.meta.value) in StatRows(entries, row).value
      {
        if e != entries[0] {
          assert e in tail;
        }
      }
    }
  }

  /** The heading of a listing: `/` for the served root, `/<name>` else. */
  function Title(name: string): string {
    if name == "./" then "/" else "/" + name
  }

  /** `SourceBuilder.directory`: the parent link comes first except at the
      served root `./`, then the entries' rows. */
  function DirectoryPage(name: string, entries: seq<Entry>, encode: string -> string): (page: Option<seq<Fragment>>)
    ensures page.Some? <==> AllStat(entries)
    ensures page.Some? ==> |page.value| >= 2 && page.value[0] == Heading(Title(name))
    ensures page.Some? ==>
              RowsOf(page.value) == (if name == "./" then [] else [JsUpRow]) + EntryRows(entries, encode).value
  {
    var rows := EntryRows(entries, encode);
    if rows.None? then None
    else Some(Document(Title(name), (if name == "./" then [] else [JsUpRow]) + rows.value))
  }

  /** The parent link is on every listing but the root's; no entry's row
      can be mistaken for it. */
  lemma UpRowOnlyBelowRoot(name: string, entries: seq<Entry>, encode: string -> string)
    requires AllStat(entries)
    ensures JsUpRow in RowsOf(DirectoryPage(name, entries, encode).value) <==> name != "./"
  {
    var rows := EntryRows(entries, encode).value;
    EntryRowsContents(entries, encode);
    assert JsUpRow !in rows;
  }

  /** Unlike the Go and C++ listings, `node_modules` gets a row. */
  lemma NodeModulesListed(entries: seq<Entry>, m: Meta, encode: string -> string)
    requires AllStat(entries)
    requires Entry("node_modules", Some(m)) in entries
    ensures EntryRow("node_modules", m, encode) in EntryRows(entries, encode).value
  {
    EntryRowsContents(entries, encode);
  }

  /** The GET handler of directories. */
  function ListDirectory(name: string, entries: Option<seq<Entry>>, encode: string -> string): (o: Outcome)
    ensures entries.None? <==> o == Rejected(ReadDirFailed)
    ensures entries.Some? && !AllStat(entries.value) <==> o == Rejected(StatFailed)
    ensures o.Answer? ==> o.response.status == 200 && o.response.contentType == Some("text/html; charset=utf-8")
    ensures o.Answer? ==>
              && o.response.contentLength == None && o.response.contentRange == None && !o.response.acceptRanges
              && o.response.body.Html? && |o.response.body.page| >= 2
              && o.response.body.page[0] == Heading(Title(name))
              && RowsOf(o.response.body.page) == (if name == "./" then [] else [JsUpRow]) + EntryRows(entries.value, encode).value
  {
    if entries.None? then Rejected(ReadDirFailed)
    else
      var page := DirectoryPage(name, entries.value, encode);
      if page.None? then Rejected(StatFailed)
      else Answer(Response(200, Some("text/html; charset=utf-8"), None, None, false, Html(page.value)))
  }

  /** The GET handler of files as written: a name without an extension is
      sent whole as `text/plain`; for any other name the handler reads the
      `Range` header of a request it was never given, which throws. */
  function ServeFile(name: string, content: seq<byte>): (o: Outcome)
    ensures Extname(name) == "" <==> o.Answer?
    ensures o.Answer? ==> o.response == Response(200, Some("text/plain"), None, None, false, Bytes(content))
    ensures o.Rejected? ==> o.failure == ReferenceError
  {
    if Extname(name) == "" then Answer(Response(200, Some("text/plain"), None, None, false, Bytes(content)))
    else Rejected(ReferenceError)
  }

  /** `Blob.slice(start)` / `slice(start, end)` for indexes that are not
      negative: both are clamped to the size and an inverted span is empty;
      `NaN` counts as 0. */
  function SliceIndex(b: Bound, size: nat): (i: nat)
    ensures i <= size
    ensures b.Num? ==> i == if b.n < size then b.n else size
    ensures !b.Num? ==> i == 0
  {
    match b
    case Num(n) => if n < size then n else size
    case _ => 0
  }

  function BoundText(b: Bound): string {
    match b
    case Num(n) => NatToString(n)
    case NaN => "NaN"
    case Null => "null"
  }

  /** `end >= size - 1`; a comparison with `NaN` is false. */
  predicate ReachesEnd(b: Bound, size: nat) {
    b.Num? && b.n >= size - 1
  }

  /** Whether `bytes` is a run of consecutive bytes of `content`. */
  predicate IsSection(bytes: seq<byte>, content: seq<byte>) {
    exists i, j | 0 <= i <= j <= |content| :: bytes == content[i..j]
  }

  /** The Range logic of the file handler, from the parsed bounds: the
      whole file for no start or a `0-` range, the tail from `start` when
      the end is missing or at the last byte or beyond, otherwise the bytes
      from `start` to `end` inclusive with a `Content-Range`. */
  function RangeAnswer(content: seq<byte>, fileType: string, bounds: seq<Bound>): (r: Response)
    requires |bounds| >= 1
    ensures r.body.Bytes? && IsSection(r.body.data, content)
    ensures r.status == 200 <==> WholeFileAsked(bounds)
    ensures r.status == 200 ==> r == Response(200, None, None, None, false, Bytes(content))
    ensures r.status != 200 ==> r.status == 206
    ensures r.contentRange.Some? ==> r.status == 206 && r.contentType == Some(fileType)
    // an open or overlong end: the tail from the clamped start, no headers
    ensures !WholeFileAsked(bounds) && (EndBound(bounds) == Null || ReachesEnd(EndBound(bounds), |content|)) ==>
              && r.status == 206 && !r.acceptRanges
              && r.contentType == None && r.contentLength == None && r.contentRange == None
              && r.body.data == content[SliceIndex(bounds[0], |content|)..]
    // an end inside the file: the bytes up to it, named in `Content-Range`
    ensures !WholeFileAsked(bounds) && EndBound(bounds) != Null && !ReachesEnd(EndBound(bounds), |content|) ==>
              && r.status == 206 && r.acceptRanges
              && r.contentType == Some(fileType) && r.contentLength == None
              && r.contentRange == Some("bytes " + BoundText(bounds[0]) + "-" + BoundText(EndBound(bounds))
                                        + "/" + NatToString(|content|))
    ensures !WholeFileAsked(bounds) && EndBound(bounds).Num? && !ReachesEnd(EndBound(bounds), |content|) ==>
              var i := SliceIndex(bounds[0], |content|);
              var j := EndBound(bounds).n + 1;
              j < |content| && r.body.data == if i <= j then content[i..j] else []
    // a `NaN` end slices to nothing
    ensures !WholeFileAsked(bounds) && EndBound(bounds) == NaN ==> r.body.data == []
  {
    var start := bounds[0];
    var end := EndBound(bounds);
    var size := |content|;
    if WholeFileAsked(bounds) then
      assert content == content[0..|content|];
      Response(200, None, None, None, false, Bytes(content))
    else if end == Null || ReachesEnd(end, size) then
      assert content[SliceIndex(start, size)..] == content[SliceIndex(start, size)..size];
      Response(206, None, None, None, false, Bytes(content[SliceIndex(start, size)..]))
    else
      var i := SliceIndex(start, size);
      var j := SliceIndex(if end.Num? then Num(end.n + 1) else NaN, size);
      var data := if i <= j then content[i..j] else [];
      assert data == content[i..i] || data == content[i..j];
      Response(206, Some(fileType), None,
               Some("bytes " + BoundText(start) + "-" + BoundText(end) + "/" + NatToString(size)),
               true, Bytes(data))
  }

  /** The GET handler of files with the request passed in. */
  function ServeFileCorrected(name: string, content: seq<byte>, fileType: string, range: Option<string>): (o: Outcome)
    ensures o.Answer?
    ensures Extname(name) == "" ==> o.response == Response(200, Some("text/plain"), None, None, false, Bytes(content))
    ensures Extname(name) != "" ==> o.response == RangeAnswer(content, fileType, ParseRange(range))
  {
    if Extname(name) == "" then Answer(Response(200, Some("text/plain"), None, None, false, Bytes(content)))
    else Answer(RangeAnswer(content, fileType, ParseRange(range)))
  }

  /** `start === null || start == 0 && end == null`: a missing end (a
      header without `-`) compares equal to `null` too. */
  predicate WholeFileAsked(bounds: seq<Bound>) {
    |bounds| >= 1 && (bounds[0] == Null || (bounds[0] == Num(0) && EndBound(bounds) == Null))
  }

  /** The second bound, which destructuring a one-element array leaves
      `undefined`; `undefined == null` holds in JavaScript. */
  function EndBound(bounds: seq<Bound>): Bound {
    if |bounds| >= 2 then bounds[1] else Null
  }

  /** As written, a GET of any file with an extension fails, whatever the
      `Range` header; passing the request makes the same GET succeed. */
  lemma RangeReadsUndefinedRequest(stem: string, ext: string, content: seq<byte>, fileType: string,
                                   range: Option<string>)
    requires '/' !in stem && '.' !in stem && stem != ""
    requires |ext| >= 2 && ext[0] == '.' && '.' !in ext[1..] && '/' !in ext
    ensures ServeFile(stem + ext, content) == Rejected(ReferenceError)
    ensures ServeFileCorrected(stem + ext, content, fileType, range).Answer?
  {
    ExtnameOfStem(stem, ext);
  }

  lemma SpanAnswer(content: seq<byte>, fileType: string, a: nat, b: nat)
    requires a <= b && b + 1 < |content|
    ensures var r := RangeAnswer(content, fileType, [Num(a), Num(b)]);
            && r.status == 206
            && r.body == Bytes(content[a..b + 1])
            && r.contentRange == Some("bytes " + NatToString(a) + "-" + NatToString(b) + "/" + NatToString(|content|))
            && r.contentType == Some(fileType)
  {
    var bounds := [Num(a), Num(b)];
    assert !WholeFileAsked(bounds);
    assert !ReachesEnd(Num(b), |content|);
  }

  /** With the request passed in, `bytes=<a>-<b>` inside the file gives
      206 and exactly the bytes `a..b`, with `Content-Range` naming them. */
  lemma RangedReplyIsSection(name: string, content: seq<byte>, fileType: string, prefix: string, a: nat, b: nat)
    requires Extname(name) != ""
    requires a <= b && b + 1 < |content|
    ensures var o := ServeFileCorrected(name, content, fileType,
                                         Some(prefix + "=" + NatToString(a) + "-" + NatToString(b)));
            && o.response.status == 206
            && o.response.body == Bytes(content[a..b + 1])
            && o.response.contentRange
               == Some("bytes " + NatToString(a) + "-" + NatToString(b) + "/" + NatToString(|content|))
            && o.response.contentType == Some(fileType)
  {
    ParseRangeOfNumbers(prefix, a, b);
    SpanAnswer(content, fileType, a, b);
  }

  /** With the request passed in, an open-ended `bytes=<a>-` with `a > 0`
      gives 206 and the file from `a` on, without a `Content-Range`. */
  lemma OpenEndedReplyIsTail(name: string, content: seq<byte>, fileType: string, prefix: string, a: nat)
    requires Extname(name) != "" && 0 < a <= |content|
    ensures var o := ServeFileCorrected(name, content, fileType, Some(prefix + "=" + NatToString(a) + "-"));
            && o.response.status == 206
            && o.response.body == Bytes(content[a..])
            && o.response.contentRange.None?
  {
    ParseRangeOpenEnded(prefix, a);
    TailAnswer(content, fileType, a);
  }

  /** `[a, null]` with `a > 0` takes the tail branch. */
  lemma TailAnswer(content: seq<byte>, fileType: string, a: nat)
    requires 0 < a <= |content|
    ensures var r := RangeAnswer(content, fileType, [Num(a), Null]);
            r.status == 206 && r.body == Bytes(content[a..]) && r.contentRange.None?
  {
    assert !WholeFileAsked([Num(a), Null]);
    assert EndBound([Num(a), Null]) == Null;
    assert SliceIndex(Num(a), |content|) == a;
  }

  /** The suffix form `bytes=-<n>` is read as "no start" and gets the
      whole file with 200. */
  lemma SuffixRangeGivesWholeFile(name: string, content: seq<byte>, fileType: string, prefix: string, n: nat)
    requires Extname(name) != ""
    ensures ServeFileCorrected(name, content, fileType, Some(prefix + "=" + "-" + NatToString(n)))
         == Answer(Response(200, None, None, None, false, Bytes(content)))
  {
    ParseRangeSuffix(prefix, n);
  }

  /** The handler for a served name. */
  function HandleAt(name: string, verb: string, fs: FileSystem, encode: string -> string): (o: Outcome)
    ensures name !in fs ==> o == Answer(NotFound(verb, "resource"))
    ensures name in fs && Route(verb, KindOf(fs[name])).None? ==> o == Answer(NotFound(verb, "handler"))
    ensures o.Answer? && o.response.status == 404 <==>
              name !in fs || Route(verb, KindOf(fs[name])).None?
    ensures o.Answer? && o.response.status == 405 <==> verb == "HEAD" && name in fs && fs[name].Directory?
    ensures verb == "HEAD" && o.Answer? ==> o.response.body in {NoBody, Bytes([])}
    ensures o.Rejected? <==>
              && verb == "GET" && name in fs && KindOf(fs[name]) != UnknownKind
              && ((fs[name].File? && Extname(name) != "")
                  || (fs[name].Directory? && (fs[name].entries.None? || !AllStat(fs[name].entries.value))))
    ensures verb == "HEAD" && name in fs && KindOf(fs[name]) == FileKind ==>
              o == Answer(Response(200, None, None, None, false, Bytes([])))
    ensures verb == "GET" && name in fs && KindOf(fs[name]) == FileKind ==> o == ServeFile(name, fs[name].content)
    ensures verb == "GET" && name in fs && fs[name].Directory? ==>
              o == ListDirectory(name, fs[name].entries, encode)
  {
    if name !in fs then Answer(NotFound(verb, "resource"))
    else
      var node := fs[name];
      match Route(verb, KindOf(node))
      case None => Answer(NotFound(verb, "handler"))
      case Some(HeadFile) => Answer(Response(200, None, None, None, false, Bytes([])))
      case Some(GetFile) => ServeFile(name, node.content)
      case Some(GetDirectory) => ListDirectory(name, node.entries, encode)
      case Some(HeadDirectory) => Answer(StatusOnly(405))
  }

  /** The handler with the request passed to the file GET handler: a GET
      of a regular file is always answered, and only a directory that
      cannot be listed is left unanswered. */
  function HandleAtCorrected(name: string, verb: string, range: Option<string>, fs: FileSystem,
                             encode: string -> string, fileType: string): (o: Outcome)
    ensures o.Rejected? <==>
              && verb == "GET" && name in fs && fs[name].Directory?
              && (fs[name].entries.None? || !AllStat(fs[name].entries.value))
    ensures verb == "GET" && name in fs && KindOf(fs[name]) == FileKind ==>
              o == ServeFileCorrected(name, fs[name].content, fileType, range)
    ensures verb != "GET" || name !in fs || KindOf(fs[name]) != FileKind ==>
              o == HandleAt(name, verb, fs, encode)
  {
    if verb == "GET" && name in fs && KindOf(fs[name]) == FileKind then
      ServeFileCorrected(name, fs[name].content, fileType, range)
    else HandleAt(name, verb, fs, encode)
  }

  /** Whether every piece decodes. */
  predicate AllDecode(pieces: seq<string>, decode: string -> Option<string>) {
    forall k | 0 <= k < |pieces| :: decode(pieces[k]).Some?
  }

  /** `.map(decodeURIComponent)` over the pieces of a path: the decoded
      pieces, or `None` when any piece fails to decode. */
  function DecodePieces(pieces: seq<string>, decode: string -> Option<string>): (r: Option<seq<string>>)
    ensures r.Some? <==> AllDecode(pieces, decode)
    ensures r.Some? ==> |r.value| == |pieces|
    ensures r.Some? ==> forall k | 0 <= k < |pieces| :: r.value[k] == decode(pieces[k]).value
    decreases |pieces|
  {
    if |pieces| == 0 then Some([])
    else
      var rest := DecodePieces(pieces[1..], decode);
      if decode(pieces[0]).None? || rest.None? then None
      else Some([decode(pieces[0]).value] + rest.value)
  }

  /** `pathname.split("/").map(decodeURIComponent).join("/")`. */
  function DecodePath(path: string, decode: string -> Option<string>): (r: Option<string>)
    ensures r.Some? <==> AllDecode(Split(path, '/'), decode)
  {
    var pieces := DecodePieces(Split(path, '/'), decode);
    if pieces.None? then None else Some(Join(pieces.value, '/'))
  }

  /** A decoder that leaves every piece as it is leaves the path as it is:
      the split and the join undo each other. */
  lemma DecodePathIdentity(path: string, decode: string -> Option<string>)
    requires forall t :: decode(t) == Some(t)
    ensures DecodePath(path, decode) == Some(path)
  {
    var pieces := Split(path, '/');
    var d := DecodePieces(pieces, decode);
    assert d.value == pieces;
    JoinSplit(path, '/');
  }

  /** When no decoded piece holds a `/`, the decoded path splits back into
      exactly the decoded pieces; only a `%2F` escape can add a piece to
      the name looked up. */
  lemma DecodedPiecesSplitBack(path: string, decode: string -> Option<string>)
    requires DecodePath(path, decode).Some?
    requires forall k | 0 <= k < |Split(path, '/')| :: '/' !in decode(Split(path, '/')[k]).value
    ensures Split(DecodePath(path, decode).value, '/') == DecodePieces(Split(path, '/'), decode).value
  {
    var d := DecodePieces(Split(path, '/'), decode).value;
    SplitJoin(d, '/');
  }

  /** `handle`: the decoded path, resolved to a served name, goes to
      `HandleAt`; a path with a malformed escape throws before anything is
      looked up. */
  function Handle(urlPath: string, verb: string, fs: FileSystem, encode: string -> string,
                  decode: string -> Option<string>, resolve: string -> string): (o: Outcome)
    ensures o == Rejected(URIError) <==> !AllDecode(Split(urlPath, '/'), decode)
    ensures DecodePath(urlPath, decode).Some? ==>
              o == HandleAt(resolve(DecodePath(urlPath, decode).value), verb, fs, encode)
  {
    var path := DecodePath(urlPath, decode);
    if path.None? then Rejected(URIError)
    else HandleAt(resolve(path.value), verb, fs, encode)
  }
}

=== FILE: legacy_server.dfy ===
/** The older Go server: the same path resolution and Range handling as the
    newer one, but every file is typed `video/mp4` and a GET on a directory
    answers with a fixed one-row table without reading the directory. Its
    `IgnoreOnError` is the newer server's, word for word. */
module LegacyServer {
  import opened Common
  import opened Page
  import opened GoStrconv
  import opened GoPath
  import opened GoContentType
  import opened GoRange
  import opened GoServer

  /** The one row of the fixed table: a link to `dde-introduction.mp4` with
      a fixed date and size (the markup also holds an empty cell between
      the link and the date). */
  const DemoRow: Row := Row(NoIcon, "dde-introduction.mp4", Name("dde-introduction.mp4"),
                            Text("2025-02-08 20:23"), Text("114.8M"))

  /** The handler once the path is resolved. */
  function LegacyHandleAt(path: string, verb: string, rangeHeader: string, fs: FileSystem): (o: Outcome)
    requires SizesFit(fs)
    ensures path !in fs ==> o == Reply(StatusOnly(404))
    ensures o.Reply? && o.response.status == 403 <==>
              path in fs && fs[path].File? && verb == "GET" && !fs[path].openable
    ensures o.Reply? && o.response.status == 404 <==>
              path !in fs || (fs[path].Directory? && verb != "GET")
              || (fs[path].File? && verb != "GET" && verb != "HEAD")
    ensures path in fs && fs[path].Directory? && verb == "GET" ==>
              o == Reply(Response(200, None, None, None, false, Html([RowOf(DemoRow)])))
    ensures path in fs && fs[path].File? && verb == "HEAD" ==>
              o == Reply(Response(200, Some("video/mp4"), Some(|fs[path].content|), None, false, NoBody))
    ensures o.Reply? && o.response.contentType.Some? ==> o.response.contentType == Some("video/mp4")
    ensures path in fs && fs[path].File? && verb == "GET" && fs[path].openable ==>
              o == ServeFile(rangeHeader, fs[path].content, "video/mp4")
  {
    if path !in fs then Reply(StatusOnly(404))
    else match fs[path]
      case Directory(_) =>
        if verb == "GET" then Reply(Response(200, None, None, None, false, Html([RowOf(DemoRow)])))
        else Reply(StatusOnly(404))
      case File(content, openable, _) =>
        if verb == "HEAD" then Reply(Response(200, Some("video/mp4"), Some(|content|), None, false, NoBody))
        else if verb != "GET" then Reply(StatusOnly(404))
        else if !openable then Reply(StatusOnly(403))
        else ServeFile(rangeHeader, content, "video/mp4")
  }

  /** The handler as written: the path is `filepath.Join("./", URL.Path)`. */
  function LegacyHandle(verb: string, urlPath: string, rangeHeader: string, fs: FileSystem): (o: Outcome)
    requires SizesFit(fs)
    ensures ServedPath(urlPath) !in fs ==> o == Reply(StatusOnly(404))
  {
    LegacyHandleAt(ServedPath(urlPath), verb, rangeHeader, fs)
  }

  /** The directory answer does not depend on what the directory holds, nor
      on whether it can be read. */
  lemma DirectoryAnswerIsFixed(verb: string, urlPath: string, rangeHeader: string,
                               fs1: FileSystem, fs2: FileSystem)
    requires SizesFit(fs1) && SizesFit(fs2)
    requires ServedPath(urlPath) in fs1 && fs1[ServedPath(urlPath)].Directory?
    requires ServedPath(urlPath) in fs2 && fs2[ServedPath(urlPath)].Directory?
    ensures LegacyHandle(verb, urlPath, rangeHeader, fs1) == LegacyHandle(verb, urlPath, rangeHeader, fs2)
  {
  }

  /** On files the two Go servers differ only in the content type: where the
      newer one would also say `video/mp4`, they answer alike. */
  lemma FilesAnswerLikeNewerServer(path: string, verb: string, rangeHeader: string, fs: FileSystem,
                                   escape: string -> string)
    requires SizesFit(fs)
    requires path in fs && fs[path].File?
    requires ParseType(path) == "video/mp4"
    ensures LegacyHandleAt(path, verb, rangeHeader, fs) == HandleAt(path, verb, rangeHeader, fs, escape)
  {
  }

  /** A directory that cannot be read is still answered with the fixed
      table, where the newer server answers 500. */
  lemma UnreadableDirectoryStillListed(path: string, fs: FileSystem, escape: string -> string)
    requires SizesFit(fs)
    requires path in fs && fs[path] == Directory(None)
    ensures LegacyHandleAt(path, "GET", "", fs).response.status == 200
    ensures HandleAt(path, "GET", "", fs, escape).response.status == 500
  {
  }
}

=== FILE: page.dfy ===
/** Types shared by the three servers: what the filesystem answers, what a
    directory listing shows, and the response a request gets. Listings are
    modelled row by row; the HTML boilerplate around them is not. */
module Page {
  import opened Common
  import opened Sizes

  /** The Bootstrap icon shown before a name in a listing. */
  datatype Icon = NoIcon | Film | FileCode | FileMusic | FileImage | FileText | Folder | UpArrow

  function Markup(i: Icon): string {
    match i
    case NoIcon => ""
    case Film => "<i class=\"bi bi-film\"></i>"
    case FileCode => "<i class=\"bi bi-file-code\"></i>"
    case FileMusic => "<i class=\"bi bi-file-music\"></i>"
    case FileImage => "<i class=\"bi bi-file-image\"></i>"
    case FileText => "<i class=\"bi bi-file-text\"></i>"
    case Folder => "<i class=\"bi bi-folder\"></i>"
    case UpArrow => "<i class=\"bi bi-box-arrow-in-up\"></i>"
  }

  /** A modification time already converted to local time, as the
      JavaScript `Date` getters return it (`month0` counts from 0). */
  datatype LocalTime = LocalTime(year: nat, month0: nat, day: nat, hours: nat, minutes: nat)

  /** What a successful `stat` of a directory entry reports. */
  datatype Meta = Meta(isDir: bool, size: nat, mtime: LocalTime)

  /** One name read from a directory, with the result of stat-ing it
      (`None` when that stat fails). */
  datatype Entry = Entry(name: string, meta: Option<Meta>)

  /** What a served path resolves to. `entries` is `None` when reading the
      directory fails; `openable` says whether opening the file for reading
      succeeds; `regular` separates regular files from other non-directories
      (sockets, devices), which only the JavaScript server distinguishes. */
  datatype Node =
    | Directory(entries: Option<seq<Entry>>)
    | File(content: seq<byte>, openable: bool, regular: bool)

  /** The text of a link: the "one level up" label or an entry's name. */
  datatype Label = UpLevel | Name(text: string)

  /** A date or size cell: `Blank` is a non-breaking space, `Dash` a "-",
      `Stamp` Go's local-time rendering of a modification time. */
  datatype Cell = Blank | Dash | Text(text: string) | Stamp(time: LocalTime) | Size(shown: SizeText)

  datatype Row = Row(icon: Icon, href: string, caption: Label, date: Cell, size: Cell)

  /** A listing page: the heading naming the directory, rows, the footer. */
  datatype Fragment = Heading(title: string) | RowOf(row: Row) | Footer

  datatype Body = NoBody | Bytes(data: seq<byte>) | PlainText(text: string) | Html(page: seq<Fragment>)

  /** The parts of a response the servers decide on. A header that is not
      set explicitly is `None`. */
  datatype Response = Response(
    status: nat,
    contentType: Option<string>,
    contentLength: Option<int>,
    contentRange: Option<string>,
    acceptRanges: bool,
    body: Body)

  /** A bare status line, with no header and no body. */
  function StatusOnly(status: nat): (r: Response)
    ensures r.status == status && r.body == NoBody
    ensures r.contentType == None && r.contentLength == None && r.contentRange == None
  {
    Response(status, None, None, None, false, NoBody)
  }

  /** The "one level up" row that the Go and C++ listings write into their
      page header. */
  const UpRow: Row := Row(UpArrow, "../", UpLevel, Blank, Blank)

  /** A name starting with a dot; an empty name is not hidden. */
  predicate IsHidden(name: string) {
    |name| > 0 && name[0] == '.'
  }

  /** The rows of a page, in order. */
  function RowsOf(page: seq<Fragment>): (rows: seq<Row>)
    ensures |rows| <= |page|
    ensures forall r | r in rows :: RowOf(r) in page
  {
    if |page| == 0 then []
    else (if page[0].RowOf? then [page[0].row] else []) + RowsOf(page[1..])
  }

  lemma {:induction false} RowsOfAppend(a: seq<Fragment>, b: seq<Fragment>)
    ensures RowsOf(a + b) == RowsOf(a) + RowsOf(b)
    decreases |a|
  {
    if |a| > 0 {
      assert (a + b)[1..] == a[1..] + b;
      RowsOfAppend(a[1..], b);
    } else {
      assert a + b == b;
    }
  }

  lemma {:induction false} RowsOfFragments(rows: seq<Row>, body: seq<Fragment>)
    requires |body| == |rows|
    requires forall i | 0 <= i < |rows| :: body[i] == RowOf(rows[i])
    ensures RowsOf(body) == rows
    decreases |rows|
  {
    if |rows| > 0 {
      RowsOfFragments(rows[1..], body[1..]);
    }
  }

  /** A page: the heading, one fragment per row in order, the footer. */
  function Document(title: string, rows: seq<Row>): (page: seq<Fragment>)
    ensures |page| == |rows| + 2 && page[0] == Heading(title) && page[|page| - 1] == Footer
    ensures forall i | 0 <= i < |rows| :: page[i + 1] == RowOf(rows[i])
    ensures RowsOf(page) == rows
  {
    var body := seq(|rows|, i requires 0 <= i < |rows| => RowOf(rows[i]));
    RowsOfFragments(rows, body);
    RowsOfAppend([Heading(title)] + body, [Footer]);
    RowsOfAppend([Heading(title)], body);
    assert RowsOf([Heading(title)]) == [] by {
      assert [Heading(title)][1..] == [];
    }
    assert RowsOf([Footer]) == [] by {
      assert [Footer][1..] == [];
    }
    [Heading(title)] + body + [Footer]
  }
}

=== FILE: sizes.dfy ===
/** The human-readable size of a listing row (`FormatSize` in Go,
    `format_size` in C++, `formatSize` in JavaScript).

    All three compare the size, as a binary64 float, with `1.1 * 1024^3`
    and `1.1 * 1024^2`, both evaluated in binary64. Multiplying by a power
    of two is exact, so the thresholds are the binary64 value nearest to 1.1
    scaled by 2^30 and 2^20; the model keeps that value exactly as a real.
    The digits of the one-decimal rendering (`%.1f`, `std::format`,
    `toFixed(1)`) are not modelled: a rendering is the pair of the size and
    the unit it is shown in. */
module Sizes {

  datatype Unit = K | M | G

  const KiB: nat := 1024
  const MiB: nat := 1048576
  const GiB: nat := 1073741824

  /** The binary64 number nearest to 1.1 (its 52-bit fraction over 2^52). */
  const NearestDoubleToOnePointOne: real := 4953959590107546.0 / 4503599627370496.0

  /** The rendered text of a size: the value `size / Divisor(unit)` printed
      with one decimal, followed by the unit letter. */
  datatype SizeText = Scaled(size: nat, unit: Unit)

  function Divisor(u: Unit): nat {
    match u
    case K => KiB
    case M => MiB
    case G => GiB
  }

  function Rank(u: Unit): nat {
    match u
    case K => 0
    case M => 1
    case G => 2
  }

  /** The unit the three implementations choose, written as their float
      comparisons; the contract gives the same choice in exact integers. */
  function UnitOf(size: nat): (u: Unit)
    ensures u == G <==> 10 * size > 11 * GiB
    ensures u == M <==> 11 * MiB < 10 * size <= 11 * GiB
    ensures u == K <==> 10 * size <= 11 * MiB
  {
    ThresholdG(size);
    ThresholdM(size);
    if size as real > NearestDoubleToOnePointOne * (GiB as real) then G
    else if size as real > NearestDoubleToOnePointOne * (MiB as real) then M
    else K
  }

  /** No integer lies between 1.1 * 2^30 and its binary64 rounding. */
  lemma ThresholdG(size: nat)
    ensures size as real > NearestDoubleToOnePointOne * (GiB as real) <==> 10 * size > 11 * GiB
  {
    assert NearestDoubleToOnePointOne * (GiB as real) == 4953959590107546.0 / 4194304.0;
    if 10 * size > 11 * GiB {
      assert size >= 1181116007;
    } else {
      assert size <= 1181116006;
    }
  }

  /** No integer lies between 1.1 * 2^20 and its binary64 rounding. */
  lemma ThresholdM(size: nat)
    ensures size as real > NearestDoubleToOnePointOne * (MiB as real) <==> 10 * size > 11 * MiB
  {
    assert NearestDoubleToOnePointOne * (MiB as real) == 4953959590107546.0 / 4294967296.0;
    if 10 * size > 11 * MiB {
      assert size >= 1153434;
    } else {
      assert size <= 1153433;
    }
  }

  /** The value shown before the unit letter. */
  function ShownValue(t: SizeText): real {
    (t.size as real) / (Divisor(t.unit) as real)
  }

  /** The rendering shared by Go's `FormatSize` and C++'s `format_size`:
      a value above 1.1 is never shown in a smaller unit than needed, and
      outside G the value never exceeds 1.1 * 1024. */
  function FormatSize(size: nat): (t: SizeText)
    ensures t.size == size
    ensures t.unit != K ==> ShownValue(t) > 11.0 / 10.0
    ensures t.unit != G ==> ShownValue(t) <= 11264.0 / 10.0
  {
    var t := Scaled(size, UnitOf(size));
    ShownValueBounds(t);
    t
  }

  lemma ShownValueBounds(t: SizeText)
    requires t.unit == UnitOf(t.size)
    ensures t.unit != K ==> ShownValue(t) > 11.0 / 10.0
    ensures t.unit != G ==> ShownValue(t) <= 11264.0 / 10.0
  {
    var s := t.size as real;
    var d := Divisor(t.unit) as real;
    if t.unit == G {
      assert 10.0 * s > 11.0 * d;
    } else if t.unit == M {
      assert 10.0 * s > 11.0 * d;
      assert 10.0 * s <= 11264.0 * d;
    } else {
      assert 10.0 * s <= 11264.0 * d;
    }
  }

  /** A larger file is never shown in a smaller unit. */
  lemma UnitMonotone(a: nat, b: nat)
    requires a <= b
    ensures Rank(UnitOf(a)) <= Rank(UnitOf(b))
  {
  }

  /** The unit boundaries, at the integers on either side. */
  lemma UnitBoundaries()
    ensures UnitOf(0) == K
    ensures UnitOf(1153433) == K && UnitOf(1153434) == M
    ensures UnitOf(1181116006) == M && UnitOf(1181116007) == G
  {
  }
}
